=== FILE: README.md ===
# Lyric Room backend: route handlers as pure state transitions

This project models the request handlers of the Lyric Room backend:
- the Express routes for profiles, posts, music, stories, lyrics and the Spotify integration;
- the admin panel's file-backed storage manager;
- the Flask room registry.

Each handler is a pure Dafny function. It takes the collection it reads and writes (a MongoDB collection, one of the admin JSON files, or the rooms dictionary) together with the request's fields. It returns a `Response`:
- `Ok(store', reply)`, the new collection and the JSON body;
- or `NotFound(message)` (404), `BadRequest(message)` (400) or `ServerError(message)` (500).

An error carries no collection: the caller keeps the one it had, which is how "nothing changes" is stated.

Modelling choices:
- A collection is a sequence of documents in natural order. So `findOne`, `findById` and `findIndex` are "the first document that matches" (`Js.FindIndex`), and uniqueness of a key is an invariant proved about the handlers rather than a given.
- The "current user" of the profile routes is the first profile (`Profile.findOne()` with no filter).
- Request fields that may be missing are `Option`s. JavaScript truthiness (`Js.Truthy`: absent or `""` is falsy) decides the `x || default` defaults, the `if (req.body.x)` updates and Mongoose's `required` check.
- `indexOf`, `splice` (a negative start counts from the end) and `filter` are modelled with JavaScript's semantics in module `Js`.
- The descending sorts and `.limit(n)` are modelled in module `Sorting`.
- Ids are strings. Dates are integers in milliseconds. The clock (`now`), new document ids, and the answers of the Spotify Web API are parameters.

Unfollow is modelled as written. It splices the user out of the target's followers at whatever `indexOf` reports, without checking for -1. On a consistent follow graph the index is never -1 (`ProfileRoutes.UnfollowPreservesConsistency`). On an inconsistent graph it drops the target's last follower instead (`ProfileRoutes.UnfollowWithoutSymmetryDropsBystander`).

Files:
- `wrappers.dfy`: `Option` and `Response`.
- `js.dfy`: the JavaScript built-ins.
- `sorting.dfy`: descending sort and limit.
- `models.dfy`: the Mongoose schemas, with their defaults.
- One file per route module: `profile.dfy`, `posts.dfy`, `music.dfy`, `stories.dfy`, `lyrics.dfy` and `spotify.dfy`.
- `storage_manager.dfy` and `rooms.dfy`.

## Model

| member | source | states |
|---|---|---|
| ProfileRoutes.CreateProfile | backend/routes/profile.js:29-43 | a new profile is appended exactly when username and email are non-empty and not already taken. The avatar defaults to the placeholder URL and the bio to "". Lists and counters start empty and at 0. Unique usernames stay unique |
| ProfileRoutes.UpdateProfile | backend/routes/profile.js:46-60 | 404 exactly when there is no profile. 400 exactly when the new username is "" or held by another profile. Otherwise bio, avatar and username of the current user are each replaced when present, "" included, and nothing else changes |
| ProfileRoutes.UpdateKeepsUnique | backend/routes/profile.js:46-60 | an accepted update keeps usernames unique |
| ProfileRoutes.UpdateKeepsConsistent | backend/routes/profile.js:46-60 | an accepted update keeps the follow graph consistent, since it touches no id, list or counter |
| ProfileRoutes.Follow | backend/routes/profile.js:63-87 | 404 exactly when the current user or the target is missing. A target already followed leaves the store unchanged. Otherwise the user and the target are replaced by the pair `Link` gives, and every other profile is untouched |
| ProfileRoutes.Link | backend/routes/profile.js:72-77 | the target's id goes on the end of the user's `following` and the user's id on the end of the target's `followers`; both counters go up by one and no other field changes |
| ProfileRoutes.UnlinkUndoesLink | backend/routes/profile.js:72-106 | for two profiles that did not list each other, unlinking right after linking gives both back unchanged |
| ProfileRoutes.Unfollow | backend/routes/profile.js:90-116 | 404 exactly when either profile is missing. A target not followed leaves the store unchanged. Otherwise the user and the target are replaced by the pair `Unlink` gives, and every other profile is untouched |
| ProfileRoutes.Unlink | backend/routes/profile.js:99-106 | both counters drop by one and no field other than the two lists changes. When the user is not among the target's followers, the target's last follower goes instead, and nothing goes when that list is empty |
| ProfileRoutes.UnlinkRemovesOne | backend/routes/profile.js:99-105 | as multisets, exactly one copy of the target's id leaves `following`, and one copy of the user's id leaves `followers` when the user is listed there |
| ProfileRoutes.UnlinkFound | backend/routes/profile.js:99-106 | when both lists hold the edge, both splices remove exactly the position `indexOf` finds |
| ProfileRoutes.FindByUsernameFrame | backend/routes/profile.js:66 | the username lookup depends only on the usernames, so edits to lists and counters do not move it |
| ProfileRoutes.FollowIdempotent | backend/routes/profile.js:72-81 | a second identical follow changes nothing |
| ProfileRoutes.FollowThenUnfollowRestores | backend/routes/profile.js:72-106 | from a state where neither profile lists the other, follow then unfollow restores the store exactly, lists and counters |
| ProfileRoutes.UnfollowAfterLink | backend/routes/profile.js:90-116 | unfollowing the target of a link just made, where neither profile listed the other before, restores the store |
| ProfileRoutes.FollowPreservesConsistency | backend/routes/profile.js:72-81 | a follow keeps the graph consistent: unique ids, counters equal to list lengths, no duplicates, and A follows B exactly when B lists A as a follower |
| ProfileRoutes.LinkPreservesConsistency | backend/routes/profile.js:72-77 | linking two profiles of a consistent graph that are not yet linked keeps it consistent |
| ProfileRoutes.AddEdgeKeepsSymmetry | backend/routes/profile.js:72-77 | appending one edge to both of its lists keeps "A follows B iff B lists A" |
| ProfileRoutes.DropEdgeKeepsSymmetry | backend/routes/profile.js:99-106 | removing one edge from both of its lists keeps "A follows B iff B lists A" |
| ProfileRoutes.UnlinkPreservesConsistency | backend/routes/profile.js:99-106 | unlinking a followed target in a consistent graph keeps it consistent |
| ProfileRoutes.UnfollowPreservesConsistency | backend/routes/profile.js:99-106 | an unfollow keeps a consistent graph consistent |
| ProfileRoutes.UnfollowWithoutSymmetryDropsBystander | backend/routes/profile.js:104-106 | on a concrete inconsistent graph, unfollow removes a bystander who still follows the target from the target's followers |
| PostRoutes.ListPosts | backend/routes/posts.js:6-13 | all posts, newest first, as a permutation of the collection |
| PostRoutes.GetPost | backend/routes/posts.js:16-24 | 404 exactly when no post has the id; otherwise a stored post with that id and no change |
| PostRoutes.CreatePost | backend/routes/posts.js:27-41 | a post is appended exactly when author and content are non-empty. It is stamped `now`, the image defaults to null, and counters and lists start empty |
| PostRoutes.Like | backend/routes/posts.js:44-55 | 404 on an unknown id. Otherwise `likes` goes up by one, `likedBy` is untouched, and nothing else changes |
| PostRoutes.AddComment | backend/routes/posts.js:58-75 | 404 on an unknown id. Otherwise exactly one comment `{author, text, now}` is appended and the earlier comments are kept |
| PostRoutes.Share | backend/routes/posts.js:78-89 | 404 on an unknown id. Otherwise `shares` goes up by one and nothing else changes |
| PostRoutes.Save | backend/routes/posts.js:92-106 | 404 on an unknown id. Otherwise the user is in `savedBy`, appended only if absent, and duplicate-freedom is kept |
| PostRoutes.DeletePost | backend/routes/posts.js:109-117 | 404 on an unknown id. Otherwise exactly the first post with the id is removed and the others keep their order |
| PostRoutes.Patch | backend/routes/posts.js:120-134 | 404 on an unknown id. Otherwise content and image are replaced only by truthy values, `updatedAt` becomes `now`, and nothing else changes |
| PostRoutes.LikeCountsEveryCall | backend/routes/posts.js:49 | two likes add two, with no per-user check |
| PostRoutes.SaveIdempotent | backend/routes/posts.js:97-99 | saving twice is saving once |
| PostRoutes.PatchIdempotent | backend/routes/posts.js:125-127 | repeating a patch at the same time changes nothing more |
| PostRoutes.DeleteThenGetNotFound | backend/routes/posts.js:109-117 | with unique ids, a deleted post is gone and ids stay unique |
| PostRoutes.CreateThenGet | backend/routes/posts.js:27-41 | a post created under a fresh id is what the lookup returns |
| PostRoutes.LocateFrame | backend/routes/posts.js:18 | the id lookup depends only on the ids |
| PostRoutes.OneMutationGrows | backend/routes/posts.js:49-127 | one in-place request keeps every post's id and lets no counter or list shrink |
| PostRoutes.MutationsOnlyGrow | backend/routes/posts.js:49-127 | over any sequence of like, share, comment, save and patch requests, counters never decrease, comments and saves are only appended, and `likedBy` never changes |
| MusicRoutes.ListMusic | backend/routes/music.js:6-27 | at most 50 accepted tracks, most played first, drawn from the collection with no copy repeated. An accepted track listed fewer times than it is stored means the list is full of tracks played at least as often |
| MusicRoutes.ListedAreAccepted | backend/routes/music.js:20-22 | the first 50 of the sorted matches are accepted tracks of the collection |
| MusicRoutes.ListedOrOutranked | backend/routes/music.js:20-22 | an accepted track with a copy missing from the first 50 is outranked by all 50 |
| MusicRoutes.GetMusic | backend/routes/music.js:30-43 | 404 on an unknown id. Otherwise `plays` goes up by one and nothing else changes |
| MusicRoutes.PlaysCountEveryFetch | backend/routes/music.js:36-37 | n fetches add exactly n plays and change nothing else |
| MusicRoutes.CreateMusic | backend/routes/music.js:46-65 | a track is appended exactly when title and artist are non-empty and a given Spotify id is not already used. `genre` defaults to [], and plays and likes start empty |
| MusicRoutes.CreateKeepsSpotifyIdsUnique | backend/routes/music.js:46-65 | creation keeps Spotify ids unique among the tracks that have one |
| MusicRoutes.CreateThenGet | backend/routes/music.js:46-65 | a track created under a fresh id is found at the end of the collection, and fetching it returns it with one play |
| MusicRoutes.ToggleLists | backend/routes/music.js:74-82 | a user not in `likedBy` is appended to it, with a `{userId}` like. Otherwise the first occurrence leaves `likedBy` and `likes` becomes `WithoutLikesBy` of it. On a duplicate-free list membership flips |
| MusicRoutes.WithoutLikesBy | backend/routes/music.js:81 | every like by the user goes; every other like stays, as often as it occurred and in its original order |
| MusicRoutes.WithoutLikesByIsExact | backend/routes/music.js:81 | those facts admit exactly one list: any order-keeping selection with the same counts is the filter's result |
| MusicRoutes.ToggleLike | backend/routes/music.js:68-89 | 404 on an unknown id. Otherwise only that track changes, by the toggle |
| MusicRoutes.DeleteMusic | backend/routes/music.js:92-99 | always succeeds. An unknown id changes nothing; otherwise exactly the first track with the id is removed and the others keep their order |
| MusicRoutes.DeleteThenGetNotFound | backend/routes/music.js:92-99 | with unique ids, a deleted track is gone, so fetching it is a 404, and ids stay unique |
| MusicRoutes.LocateFrame | backend/routes/music.js:32 | the id lookup depends only on the ids |
| MusicRoutes.ToggleKeepsPaired | backend/routes/music.js:76-82 | when `likes` mirrors a duplicate-free `likedBy`, it still does after a toggle |
| MusicRoutes.FilterLikesOf | backend/routes/music.js:81 | filtering the mirrored likes by user is mirroring the filtered ids |
| MusicRoutes.LikeTwiceRestores | backend/routes/music.js:74-82 | from a state where the user appears in neither list, liking twice restores the track exactly |
| StoryRoutes.ListActive | backend/routes/stories.js:6-15 | exactly the stories whose `expiresAt` is strictly after `now`, each as many times as it is stored, newest first |
| StoryRoutes.ExpiredStaysExpired | backend/routes/stories.js:8-10 | a story left out of the listing at time t is left out at every later time |
| StoryRoutes.GetStory | backend/routes/stories.js:18-26 | 404 exactly when no story has the id, expired or not |
| StoryRoutes.CreateStory | backend/routes/stories.js:29-43 | a story is appended exactly when author and image are non-empty. It is stamped `now`, has no views, and expires at the supplied time, else 86,400,000 ms after `now` |
| StoryRoutes.DefaultExpiryWindow | backend/routes/stories.js:34 | a story created without an expiry is listed exactly at times before `now` + 24 h |
| StoryRoutes.View | backend/routes/stories.js:46-61 | 404 on an unknown id. A first viewer is appended and `views` goes up by one; a repeat viewer changes nothing. `views - |viewedBy|` is preserved, `views` never decreases, and duplicate-freedom is kept |
| StoryRoutes.ViewIdempotent | backend/routes/stories.js:51-54 | viewing twice as the same user is viewing once |
| StoryRoutes.TwoViewersCountTwice | backend/routes/stories.js:51-54 | two new viewers add two views and are recorded in order |
| StoryRoutes.DeleteStory | backend/routes/stories.js:64-72 | 404 on an unknown id. Otherwise exactly the first story with the id is removed |
| StoryRoutes.DeleteThenGetNotFound | backend/routes/stories.js:64-72 | with unique ids, a deleted story is gone |
| StoryRoutes.CreateThenGet | backend/routes/stories.js:29-43 | a story created under a fresh id is what the lookup returns |
| StoryRoutes.LocateFrame | backend/routes/stories.js:20 | the id lookup depends only on the ids |
| LyricsRoutes.GetByTrack | backend/routes/lyrics.js:7-20 | 404 when the track has no lyrics. Otherwise `views` goes up by exactly one and nothing else changes |
| LyricsRoutes.GetCountsEveryView | backend/routes/lyrics.js:13-14 | two fetches add two views |
| LyricsRoutes.Search | backend/routes/lyrics.js:23-38 | at most 20 matching records, each match at most once and in store order (a subsequence of the store); exactly 20, or every match when fewer exist |
| LyricsRoutes.SearchAfterAppend | backend/routes/lyrics.js:26-32 | a record added to the store appears last in the search when it matches and fewer than 20 matched before; otherwise the answer is unchanged |
| LyricsRoutes.Upsert | backend/routes/lyrics.js:41-66 | a new track gets a record when title, artist and text are non-empty: language defaults to "en", synced to false, synced lines and translations to []. An existing record needs non-empty text; it always gets the new text, and new synced lines and translations only when supplied. Title, artist, language, synced and views are unchanged |
| LyricsRoutes.UpsertKeepsTracksUnique | backend/routes/lyrics.js:43-46 | an upsert never creates a second record for a track. Afterwards the track's record is the one returned |
| LyricsRoutes.UpdateIdempotent | backend/routes/lyrics.js:55-59 | repeating an update changes nothing more |
| LyricsRoutes.TranslationsOnlyOnUpdate | backend/routes/lyrics.js:46-58 | translations sent with the creating request are dropped; the same request repeated stores them |
| LyricsRoutes.GetSynced | backend/routes/lyrics.js:69-86 | 404 for an unknown id and 400 "Lyrics not synced" for unsynced lyrics. Otherwise exactly title, artist and synced lines, with no change |
| LyricsRoutes.CreatedSyncedIsServed | backend/routes/lyrics.js:52-82 | a created record is served by the synced endpoint exactly when the request said `synced: true`, with its lines |
| LyricsRoutes.LocateTrackFrame | backend/routes/lyrics.js:9 | the lookup by track depends only on the track ids |
| SpotifyRoutes.FirstImage | backend/routes/spotify.js:62 | the first image's url, or none without images |
| SpotifyRoutes.Callback | backend/routes/spotify.js:20-81 | a failed token exchange or profile fetch is a 400 with no write. A new user gets an integration built from the profile, with `expiresAt = now + expires_in*1000`, when the user type, the Spotify id and the token are valid. An existing one changes exactly access token, refresh token, expiry, display name and image |
| SpotifyRoutes.CallbackKeepsKeysUnique | backend/routes/spotify.js:52-54 | one integration per user and per Spotify account stays true |
| SpotifyRoutes.CallbackThenGet | backend/routes/spotify.js:52-76 | after a successful callback the user's integration is the one saved |
| SpotifyRoutes.CallbackIdempotent | backend/routes/spotify.js:52-76 | replaying a callback with the same answers changes nothing more |
| SpotifyRoutes.GetIntegration | backend/routes/spotify.js:84-93 | "Not connected to Spotify" (404) exactly when the user has no integration |
| SpotifyRoutes.CallAsUser | backend/routes/spotify.js:98-111 | a user without an integration gets 404 and the API is not consulted. Otherwise the API's answer for the stored token is returned, or a 500 when the call fails |
| SpotifyRoutes.TopTracks | backend/routes/spotify.js:96-114 | 404 when not connected; otherwise the top tracks fetched with the user's token |
| SpotifyRoutes.Playlists | backend/routes/spotify.js:117-135 | 404 when not connected; otherwise the playlists fetched with the user's token |
| SpotifyRoutes.Disconnect | backend/routes/spotify.js:138-145 | always succeeds. The user's first integration, if any, is removed and the rest keep their order |
| SpotifyRoutes.DisconnectThenGetNotFound | backend/routes/spotify.js:140-141 | with unique keys, a disconnected user is no longer connected |
| SpotifyRoutes.LinkTrack | backend/routes/spotify.js:148-171 | 404 when not connected, and 400 exactly when the track fails creation's checks. Otherwise the track is appended with `uploadedBy` the user, and its id goes on the end of `linkedTracks` with nothing else changed |
| SpotifyRoutes.LinkTwiceAppendsInOrder | backend/routes/spotify.js:164 | two links append both ids in order |
| SpotifyRoutes.LocateUserFrame | backend/routes/spotify.js:52 | the lookup by user depends only on the user ids |
| AdminStorage.Stamp | backend/admin/storage-manager.js:23-27 | the entry's fields plus `timestamp` and `id`, which override same-named fields |
| AdminStorage.LogsGetAll | backend/admin/storage-manager.js:36-46 | the stored entries, or [] when there is no file |
| AdminStorage.LogsAdd | backend/admin/storage-manager.js:17-34 | exactly one stamped entry is appended after the earlier ones, and its id is returned. Reports and settings are untouched |
| AdminStorage.LogsClear | backend/admin/storage-manager.js:48-57 | afterwards `getAll` is []. Reports and settings are untouched |
| AdminStorage.ReportsGetAll | backend/admin/storage-manager.js:82-91 | the stored reports, or [] when there is no file |
| AdminStorage.ReportsAdd | backend/admin/storage-manager.js:62-80 | one report is appended, stamped with the given time and id, whose status is "pending" whatever the report said; its other fields are kept |
| AdminStorage.MarkResolved | backend/admin/storage-manager.js:99-100 | status "resolved" and the resolution set; other fields kept |
| AdminStorage.ReportsResolve | backend/admin/storage-manager.js:93-109 | "Report not found" with no change when there is no file or no report with the id. Otherwise only the first matching report is marked resolved |
| AdminStorage.SettingsGet | backend/admin/storage-manager.js:114-123 | the stored object, or {} when there is no file |
| AdminStorage.SettingsSet | backend/admin/storage-manager.js:125-134 | key k gets the value and every other key is kept |
| AdminStorage.SettingsUpdate | backend/admin/storage-manager.js:136-143 | the whole object is replaced |
| AdminStorage.ReadsOfEmptyAreEmpty | backend/admin/storage-manager.js:36-123 | reads before any write are empty |
| AdminStorage.AddThenClearIsEmpty | backend/admin/storage-manager.js:17-57 | after clear nothing remains, whatever was added |
| AdminStorage.ResolveIdempotent | backend/admin/storage-manager.js:97-102 | resolving twice is resolving once |
| AdminStorage.AddThenResolve | backend/admin/storage-manager.js:62-102 | a report added under a fresh id can be resolved, and the earlier reports are untouched |
| AdminStorage.SetThenSetOverwrites | backend/admin/storage-manager.js:127-129 | the second set of a key wins |
| AdminStorage.OneStepKeepsResolved | backend/admin/storage-manager.js:74-99 | one add or resolve keeps every report at its position with every field but status and resolution, and keeps resolved reports resolved |
| AdminStorage.ResolvedStaysResolved | backend/admin/storage-manager.js:74-99 | over any sequence of adds and resolves, every report stays at its position with its id, timestamp and content, and never goes back to pending |
| RoomRegistry.GetRooms | backend_app.py:6-8 | the whole map, every bucket as stored |
| RoomRegistry.InitialIsEmpty | backend_app.py:4 | at start-up the map is empty "public" and "private" buckets |
| RoomRegistry.CreateRoom | backend_app.py:10-16 | the type defaults to "public" and the name to "unnamed" only when absent. `{name}` goes on the end of its bucket, which is created when new, and every other bucket is unchanged |
| RoomRegistry.DefaultsArePublicUnnamed | backend_app.py:13-15 | a room created without type and name is the last public room, "unnamed" |
| RoomRegistry.TotalRemove | backend_app.py:4 | the room count splits over any bucket |
| RoomRegistry.CreateAddsOne | backend_app.py:15 | each creation adds exactly one room in all |
| RoomRegistry.CreatesOnlyAppend | backend_app.py:15 | over any sequence of creations, buckets are never removed, earlier rooms stay first in order, and the count grows by the number of calls |

## Left out

- ProfileRoutes.Follow and ProfileRoutes.Unfollow: require that the target is not the current user. A self-follow saves two separately loaded copies of one document, and its outcome depends on Mongoose's dirty-path tracking and versioning.
- The profile read routes (`GET /`, `GET /:username`, `GET /saved/posts`): they only read, and their answer is shaped by `populate`, a join this model does not represent.
- Exceptions are not modelled: malformed ids (ObjectId cast errors), database failures, and file-system or JSON-parse failures in the storage manager. In the routes these reach a `catch` that answers 400 or 500 depending on the route. In the storage manager, the writers (`add`, `clear`, `resolve`, `set`, `update`) return `{ success: false, error }` instead of throwing. The readers (`getAll` of logs and reports, `settings.get`) answer `[]` or `{}` on a read or parse failure, just as for a missing file; so `settings.set` on an unreadable settings file rewrites it with only the new key and still reports success. The model's stores are always readable, so none of this is modelled. `SpotifyRoutes.CallAsUser` models only the failure of the Spotify call itself.
- Partial writes are not modelled. Follow and unfollow save two documents, link-track saves the track and then the integration, and a failure between the two saves is outside the model; each handler is atomic here.
- Concurrency, and races between requests, are not modelled.
- HTTP status codes beyond the outcome kind (200 vs 201) are not modelled, nor the `error` field of the callback's 400 body.
- Mongoose's automatic `createdAt`/`updatedAt` timestamps (`{ timestamps: true }`), `__v` versions and ObjectId generation: new ids are parameters. `Post.updatedAt`, set explicitly by patch, is modelled.
- MusicRoutes.ListMusic and LyricsRoutes.Search: the `$regex` filters (genre, artist, search, `q`) are an arbitrary predicate. The relative order of tracks with equal play counts is not promised. Search keeps store order, which stands for the natural order in which the database returns records.
- StoryRoutes.ListActive: the database's TTL index, which purges expired stories in the background, is not modelled; only the `expiresAt > now` filter is.
- StoryRoutes.CreateStory: `expiresAt` is an optional timestamp. A falsy value given in the body (`0`, `""`) behaves like an absent one and is represented as `None`. Date parsing is not modelled.
- JSON `null` field values are not modelled outside the rooms registry: an optional body field is either absent (`None`) or a value of its type. For example, `UpdateProfile` checks fields with `!== undefined`, so `bio: null` counts as present there and would store null.
- Request bodies whose `userId`, `musicId` or Spotify user id is absent are not modelled: those fields are plain ids (`userId` in story view, post save and music like; `musicId` in the lyrics upsert; `userId` in the callback).
- SpotifyRoutes.Callback: `expires_in` is an integer. A missing one, which yields an invalid date, is not modelled. The auth-URL route only formats a constant URL and is left out.
- Spotify network calls (token exchange, profile, top tracks, playlists) are parameters. The `limit: 20` they send is applied by Spotify.
- Music `duration` is an integer number of seconds.
- AdminStorage: report ids are compared with strict equality on parsed JSON values; the source's loose `==` is not modelled. Log and report ids come from the clock and are parameters. A file holding something other than an array or object is not modelled.
- RoomRegistry.CreateRoom: `type` and `name` are strings when present. Non-string JSON values, and a request with no JSON body, are not modelled.
- `backend/server.js`, `backend/routes/admin.js`, `backend/admin/admin-controller.js`, the TypeScript room server and the frontend are not part of this model: they are wiring, stub answers, aggregates computed by the database, and UI code.

=== FILE: js.dfy ===
/** JavaScript values and `Array.prototype` operations, as the route handlers use them. */
module Js {
  import opened Wrappers

  /** JavaScript truthiness of an optional string: `undefined` and `""` are falsy. Mongoose's
      `required` check on a String path accepts exactly the truthy values. */
  predicate Truthy(v: Option<string>) {
    v.Some? && v.value != ""
  }

  /** `v || fallback` for an optional string. */
  function OrElse(v: Option<string>, fallback: string): (r: string)
    ensures Truthy(v) ==> r == v.value
    ensures !Truthy(v) ==> r == fallback
  {
    if Truthy(v) then v.value else fallback
  }

  /** No element occurs twice. */
  predicate NoDup<T(==)>(s: seq<T>) {
    forall i, j :: 0 <= i < j < |s| ==> s[i] != s[j]
  }

  /** `Array.prototype.findIndex`: the first position whose element satisfies `p`, or -1. */
  function FindIndex<T>(s: seq<T>, p: T -> bool): (r: int)
    ensures -1 <= r < |s|
    ensures r == -1 <==> forall i :: 0 <= i < |s| ==> !p(s[i])
    ensures 0 <= r ==> p(s[r]) && forall i :: 0 <= i < r ==> !p(s[i])
  {
    if |s| == 0 then -1
    else if p(s[0]) then 0
    else
      var k := FindIndex(s[1..], p);
      if k == -1 then -1 else k + 1
  }

  /** `Array.prototype.indexOf`: the first position holding `x`, or -1. */
  function IndexOf<T(==)>(s: seq<T>, x: T): (r: int)
    ensures -1 <= r < |s|
    ensures r == -1 <==> x !in s
    ensures 0 <= r ==> s[r] == x && x !in s[..r]
  {
    if |s| == 0 then -1
    else if s[0] == x then 0
    else
      var k := IndexOf(s[1..], x);
      assert s[1..][..(if k == -1 then 0 else k)] == s[1..(if k == -1 then 1 else k + 1)];
      if k == -1 then -1 else k + 1
  }

  /** `s` without its element at position `k`. */
  function RemoveAt<T>(s: seq<T>, k: nat): (r: seq<T>)
    requires k < |s|
    ensures |r| == |s| - 1
    ensures r[..k] == s[..k] && r[k..] == s[k + 1..]
  {
    s[..k] + s[k + 1..]
  }

  /** The position `splice(start, …)` acts on: a negative start counts from the end
      (clamped at 0), a start past the end is clamped to the length. */
  function SpliceStart(len: nat, start: int): (k: nat)
    ensures k <= len
    ensures 0 <= start <= len ==> k == start
    ensures -(len as int) <= start < 0 ==> k == len + start
  {
    if start < 0 then (if len + start < 0 then 0 else len + start)
    else if start > len then len
    else start
  }

  /** `s.splice(start, 1)`: removes one element at the resolved start, if there is one. */
  function SpliceOne<T>(s: seq<T>, start: int): (r: seq<T>)
    ensures SpliceStart(|s|, start) < |s| ==> r == RemoveAt(s, SpliceStart(|s|, start))
    ensures SpliceStart(|s|, start) == |s| ==> r == s
  {
    var k := SpliceStart(|s|, start);
    if k < |s| then RemoveAt(s, k) else s
  }

  /** `Array.prototype.filter`. */
  function Filter<T>(s: seq<T>, p: T -> bool): (r: seq<T>)
    ensures |r| <= |s|
  {
    if |s| == 0 then []
    else
      var rest := Filter(s[1..], p);
      if p(s[0]) then [s[0]] + rest else rest
  }

  /** `filter` keeps exactly the elements that pass, each as often as it occurs at most. */
  lemma {:induction false} FilterMembers<T>(s: seq<T>, p: T -> bool)
    ensures forall i :: 0 <= i < |Filter(s, p)| ==> Filter(s, p)[i] in s && p(Filter(s, p)[i])
    ensures forall i :: 0 <= i < |s| && p(s[i]) ==> s[i] in Filter(s, p)
    ensures multiset(Filter(s, p)) <= multiset(s)
  {
    if |s| > 0 {
      FilterMembers(s[1..], p);
      assert s == [s[0]] + s[1..];
      var rest := Filter(s[1..], p);
      forall i | 0 <= i < |s| && p(s[i]) ensures s[i] in Filter(s, p) {
        if i > 0 {
          assert s[i] == s[1..][i - 1];
        }
      }
    }
  }

  /** Removing one position from a list without duplicates keeps it without duplicates. */
  lemma RemoveAtNoDup<T>(s: seq<T>, k: nat)
    requires NoDup(s) && k < |s|
    ensures NoDup(RemoveAt(s, k))
  {
    var r := RemoveAt(s, k);
    forall i, j | 0 <= i < j < |r| ensures r[i] != r[j] {
      var i' := if i < k then i else i + 1;
      var j' := if j < k then j else j + 1;
      assert r[i] == s[i'] && r[j] == s[j'];
    }
  }

  /** In a list without duplicates, removing position `k` removes exactly the value there. */
  lemma RemoveAtMembers<T>(s: seq<T>, k: nat, y: T)
    requires NoDup(s) && k < |s|
    ensures y in RemoveAt(s, k) <==> y in s && y != s[k]
  {
    var r := RemoveAt(s, k);
    assert forall j :: 0 <= j < |r| ==> r[j] == s[if j < k then j else j + 1];
    if y in r {
      var i :| 0 <= i < |r| && r[i] == y;
      var i' := if i < k then i else i + 1;
      assert s[i'] == y;
    }
    if y in s && y != s[k] {
      var i :| 0 <= i < |s| && s[i] == y;
      if i < k { assert r[i] == y; } else { assert r[i - 1] == y; }
    }
  }

  /** Removing the element `indexOf` finds, from a list without duplicates, removes exactly
      that value. */
  lemma RemoveFoundNoDup<T>(s: seq<T>, x: T)
    requires NoDup(s) && x in s
    ensures var r := RemoveAt(s, IndexOf(s, x));
      NoDup(r) && x !in r && forall y :: y in r <==> y in s && y != x
  {
    var k := IndexOf(s, x);
    RemoveAtNoDup(s, k);
    forall y ensures y in RemoveAt(s, k) <==> y in s && y != x {
      RemoveAtMembers(s, k, y);
    }
  }

  /** Appending an absent value and then removing what `indexOf` finds restores the list. */
  lemma AppendThenRemove<T>(s: seq<T>, x: T)
    requires x !in s
    ensures IndexOf(s + [x], x) == |s|
    ensures RemoveAt(s + [x], |s|) == s
  {
    var t := s + [x];
    var k := IndexOf(t, x);
    assert t[..|s|] == s;
  }

  /** Appending a value absent from a list without duplicates keeps it without duplicates. */
  lemma AppendNoDup<T>(s: seq<T>, x: T)
    requires NoDup(s) && x !in s
    ensures NoDup(s + [x])
  {
  }

  /** `findIndex` answers the same on two lists that agree, position by position, on `p`. */
  lemma {:induction false} FindIndexFrame<T>(s: seq<T>, s': seq<T>, p: T -> bool)
    requires |s| == |s'|
    requires forall i :: 0 <= i < |s| ==> p(s[i]) == p(s'[i])
    ensures FindIndex(s, p) == FindIndex(s', p)
  {
    if |s| > 0 {
      FindIndexFrame(s[1..], s'[1..], p);
    }
  }

  /** Removing position `k` takes exactly one copy of the value there out of the list. */
  lemma RemoveAtMultiset<T>(s: seq<T>, k: nat)
    requires k < |s|
    ensures multiset(RemoveAt(s, k)) == multiset(s) - multiset{s[k]}
  {
    assert s == s[..k] + [s[k]] + s[k + 1..];
  }

  /** Splicing out what `indexOf` finds takes one copy of `x` out of the list when it is
      there. */
  lemma SpliceFoundMultiset<T>(s: seq<T>, x: T)
    ensures x in s ==> multiset(SpliceOne(s, IndexOf(s, x))) == multiset(s) - multiset{x}
  {
    if x in s {
      RemoveAtMultiset(s, IndexOf(s, x));
    }
  }

  /** Filtering keeps every copy of a value that passes and none of one that fails. */
  lemma {:induction false} FilterCount<T>(s: seq<T>, p: T -> bool, x: T)
    ensures multiset(Filter(s, p))[x] == if p(x) then multiset(s)[x] else 0
  {
    if |s| > 0 {
      FilterCount(s[1..], p, x);
      assert s == [s[0]] + s[1..];
      assert multiset(s) == multiset{s[0]} + multiset(s[1..]);
      if p(s[0]) {
        assert multiset(Filter(s, p)) == multiset{s[0]} + multiset(Filter(s[1..], p));
      }
    }
  }

  /** Filtering keeps a list whose every element passes. */
  lemma {:induction false} FilterKeepsAll<T>(s: seq<T>, p: T -> bool)
    requires forall i :: 0 <= i < |s| ==> p(s[i])
    ensures Filter(s, p) == s
  {
    if |s| > 0 {
      FilterKeepsAll(s[1..], p);
    }
  }

  /** A rejected element appended at the end does not survive filtering. */
  lemma {:induction false} FilterAppendRejected<T>(s: seq<T>, x: T, p: T -> bool)
    requires !p(x)
    ensures Filter(s + [x], p) == Filter(s, p)
  {
    if |s| == 0 {
      assert s + [x] == [x];
    } else {
      assert (s + [x])[1..] == s[1..] + [x];
      FilterAppendRejected(s[1..], x, p);
    }
  }

  /** An accepted element appended at the end survives filtering, last. */
  lemma {:induction false} FilterAppendAccepted<T>(s: seq<T>, x: T, p: T -> bool)
    requires p(x)
    ensures Filter(s + [x], p) == Filter(s, p) + [x]
  {
    if |s| == 0 {
      assert s + [x] == [x];
    } else {
      assert (s + [x])[1..] == s[1..] + [x];
      FilterAppendAccepted(s[1..], x, p);
    }
  }

  /** `a` is `b` with some elements left out and the others kept in their order. */
  predicate IsSubsequence<T(==)>(a: seq<T>, b: seq<T>)
    decreases |b|
  {
    if |b| == 0 then |a| == 0
    else IsSubsequence(a, b[1..]) || (|a| > 0 && a[0] == b[0] && IsSubsequence(a[1..], b[1..]))
  }

  /** A subsequence holds no element more often than the sequence it is taken from. */
  lemma {:induction false} SubsequenceMultiset<T>(a: seq<T>, b: seq<T>)
    requires IsSubsequence(a, b)
    ensures multiset(a) <= multiset(b)
    decreases |b|
  {
    if |b| > 0 {
      assert b == [b[0]] + b[1..];
      if IsSubsequence(a, b[1..]) {
        SubsequenceMultiset(a, b[1..]);
      } else {
        SubsequenceMultiset(a[1..], b[1..]);
        assert a == [a[0]] + a[1..];
      }
    }
  }

  /** A prefix of a subsequence is still a subsequence. */
  lemma {:induction false} PrefixSubsequence<T>(a: seq<T>, b: seq<T>, n: nat)
    requires IsSubsequence(a, b) && n <= |a|
    ensures IsSubsequence(a[..n], b)
    decreases |b|
  {
    if |b| > 0 {
      if IsSubsequence(a, b[1..]) {
        PrefixSubsequence(a, b[1..], n);
      } else if n > 0 {
        PrefixSubsequence(a[1..], b[1..], n - 1);
        assert a[..n][1..] == a[1..][..n - 1];
      } else {
        EmptySubsequence(b[1..]);
      }
    }
  }

  /** The empty list is a subsequence of every list. */
  lemma {:induction false} EmptySubsequence<T>(b: seq<T>)
    ensures IsSubsequence([], b)
    decreases |b|
  {
    if |b| > 0 {
      EmptySubsequence(b[1..]);
    }
  }

  /** `filter` keeps the elements that pass in their original order. */
  lemma {:induction false} FilterSubsequence<T>(s: seq<T>, p: T -> bool)
    ensures IsSubsequence(Filter(s, p), s)
  {
    if |s| > 0 {
      FilterSubsequence(s[1..], p);
      if p(s[0]) {
        assert Filter(s, p)[1..] == Filter(s[1..], p);
      }
    }
  }

  /** Filtering out one value drops every copy of it and keeps every copy of the others. */
  lemma {:induction false} FilterRejectMultiset<T>(s: seq<T>, x: T, p: T -> bool)
    requires forall y :: p(y) <==> y != x
    ensures multiset(Filter(s, p)) == multiset(s)[x := 0]
  {
    if |s| > 0 {
      FilterRejectMultiset(s[1..], x, p);
      assert s == [s[0]] + s[1..];
      assert multiset(s) == multiset{s[0]} + multiset(s[1..]);
      if p(s[0]) {
        assert multiset(Filter(s, p)) == multiset{s[0]} + multiset(Filter(s[1..], p));
      }
    }
  }

  /** Dropping every `x` from a multiset leaves a different value added to it alone. */
  lemma ClearOtherThanHead<T>(h: T, m: multiset<T>, x: T)
    requires h != x
    ensures (multiset{h} + m)[x := 0] == multiset{h} + m[x := 0]
  {
    var left := (multiset{h} + m)[x := 0];
    var right := multiset{h} + m[x := 0];
    forall y ensures left[y] == right[y] {
      if y == x {
        assert multiset{h}[y] == 0;
      }
    }
    assert left == right;
  }

  /** Only one list is a subsequence of `s` holding every value but `x` as often as `s` does
      and no `x`: the one `filter` gives. */
  lemma {:induction false} OnlySubsequenceWithout<T>(a: seq<T>, s: seq<T>, x: T, p: T -> bool)
    requires forall y :: p(y) <==> y != x
    requires IsSubsequence(a, s) && multiset(a) == multiset(s)[x := 0]
    ensures a == Filter(s, p)
    decreases |s|
  {
    if |s| > 0 {
      assert s == [s[0]] + s[1..];
      assert multiset(s) == multiset{s[0]} + multiset(s[1..]);
      if s[0] == x {
        assert multiset(a)[x] == 0;
        if !IsSubsequence(a, s[1..]) {
          assert false;
        }
        OnlySubsequenceWithout(a, s[1..], x, p);
      } else if IsSubsequence(a, s[1..]) {
        SubsequenceMultiset(a, s[1..]);
        assert false;
      } else {
        assert a == [a[0]] + a[1..];
        assert multiset(a) == multiset{s[0]} + multiset(a[1..]);
        ClearOtherThanHead(s[0], multiset(s[1..]), x);
        var rest := multiset(a[1..]);
        var wanted := multiset(s[1..])[x := 0];
        forall y ensures rest[y] == wanted[y] {
          assert (multiset{s[0]} + rest)[y] == (multiset{s[0]} + wanted)[y];
        }
        assert rest == wanted;
        OnlySubsequenceWithout(a[1..], s[1..], x, p);
      }
    }
  }

  /** Removing a position past the head keeps the head. */
  lemma RemoveAtCons<T>(s: seq<T>, k: nat)
    requires 0 < k < |s|
    ensures RemoveAt(s, k) == [s[0]] + RemoveAt(s[1..], k - 1)
  {
    assert s[1..][..k - 1] == s[1..k];
    assert s[1..][k..] == s[k + 1..];
    assert s[..k] == [s[0]] + s[1..k];
  }

  /** Every element after the head passes `p`, except possibly the one at `k`. */
  lemma TailPasses<T>(s: seq<T>, k: nat, p: T -> bool)
    requires 0 < k < |s|
    requires forall i :: 0 <= i < |s| && i != k ==> p(s[i])
    ensures forall i :: 0 <= i < |s[1..]| && i != k - 1 ==> p(s[1..][i])
  {
    forall i | 0 <= i < |s[1..]| && i != k - 1 ensures p(s[1..][i]) {
      assert s[1..][i] == s[i + 1];
    }
  }

  /** When `p` rejects the element at `k` and passes every other one, filtering removes
      exactly position `k`. */
  lemma {:induction false} FilterRejectsOnlyAt<T>(s: seq<T>, k: nat, p: T -> bool)
    requires k < |s| && !p(s[k])
    requires forall i :: 0 <= i < |s| && i != k ==> p(s[i])
    ensures Filter(s, p) == RemoveAt(s, k)
  {
    if k == 0 {
      forall i | 0 <= i < |s[1..]| ensures p(s[1..][i]) {
        assert s[1..][i] == s[i + 1];
      }
      FilterKeepsAll(s[1..], p);
    } else {
      TailPasses(s, k, p);
      FilterRejectsOnlyAt(s[1..], k - 1, p);
      RemoveAtCons(s, k);
    }
  }

  /** When `p` rejects exactly the value `x` and `x` occurs once, filtering removes the
      position `indexOf` finds. */
  lemma FilterDropsOnlyCopy<T>(s: seq<T>, x: T, p: T -> bool)
    requires NoDup(s) && x in s && !p(x)
    requires forall i :: 0 <= i < |s| && s[i] != x ==> p(s[i])
    ensures Filter(s, p) == RemoveAt(s, IndexOf(s, x))
  {
    var k := IndexOf(s, x);
    FilterRejectsOnlyAt(s, k, p);
  }
}

=== FILE: lyrics.dfy ===
/** The lyrics routes (backend/routes/lyrics.js): lookup by track with a view counter, search,
    the upsert keyed by `musicId`, and the synced-lyrics view. */
module LyricsRoutes {
  import opened Wrappers
  import opened Js
  import opened Sorting
  import opened Models

  type LyricsStore = seq<Lyrics>

  const NotFoundMessage := "Lyrics not found"
  const NotSyncedMessage := "Lyrics not synced"
  const SearchLimit: nat := 20

  /** `Lyrics.findOne({ musicId })`: the position of the first record for that track, or -1. */
  function LocateTrack(store: LyricsStore, musicId: Id): (i: int)
    ensures -1 <= i < |store|
    ensures i == -1 <==> forall k :: 0 <= k < |store| ==> store[k].musicId != musicId
    ensures 0 <= i ==> store[i].musicId == musicId && forall k :: 0 <= k < i ==> store[k].musicId != musicId
  {
    FindIndex(store, (l: Lyrics) => l.musicId == musicId)
  }

  /** `Lyrics.findById(id)`: the position of the first record with that id, or -1. */
  function Locate(store: LyricsStore, id: Id): (i: int)
    ensures -1 <= i < |store|
    ensures i == -1 <==> forall k :: 0 <= k < |store| ==> store[k].id != id
    ensures 0 <= i ==> store[i].id == id && forall k :: 0 <= k < i ==> store[k].id != id
  {
    FindIndex(store, (l: Lyrics) => l.id == id)
  }

  /** The unique index on `musicId`: at most one record per track. */
  predicate UniqueTracks(store: LyricsStore) {
    forall i, j :: 0 <= i < j < |store| ==> store[i].musicId != store[j].musicId
  }

  /** `GET /music/:musicId`: the track's lyrics, with one more view counted. */
  function GetByTrack(store: LyricsStore, musicId: Id): (r: Response<LyricsStore, Lyrics>)
    ensures r.Ok? || r.NotFound?
    ensures r.NotFound? <==> LocateTrack(store, musicId) == -1
    ensures r.NotFound? ==> r.message == NotFoundMessage
    ensures r.Ok? ==>
      var i := LocateTrack(store, musicId);
      && SameExcept(store, r.store, i) && r.store[i] == r.reply
      && r.reply.musicId == musicId
      && r.reply.views == store[i].views + 1
      && r.reply.(views := store[i].views) == store[i]
  {
    var i := LocateTrack(store, musicId);
    if i == -1 then NotFound(NotFoundMessage)
    else
      var l := store[i].(views := store[i].views + 1);
      Ok(store[i := l], l)
  }

  /** `GET /search`: at most twenty records that `matches` accepts, each stored record at
      most once and in store order; the case-insensitive pattern match on title, artist or
      text is the parameter `matches`. */
  function Search(store: LyricsStore, matches: Lyrics -> bool): (r: seq<Lyrics>)
    ensures |r| <= SearchLimit
    ensures forall i :: 0 <= i < |r| ==> r[i] in store && matches(r[i])
    ensures IsSubsequence(r, store) && multiset(r) <= multiset(store)
    ensures |r| == SearchLimit || |r| == |Filter(store, matches)|
    ensures |r| < SearchLimit ==> forall l :: l in store && matches(l) ==> l in r
  {
    var found := Filter(store, matches);
    FilterMembers(store, matches);
    FilterSubsequence(store, matches);
    var r := Take(found, SearchLimit);
    assert forall i :: 0 <= i < |r| ==> r[i] == found[i];
    PrefixSubsequence(found, store, |r|);
    SubsequenceMultiset(r, store);
    r
  }

  /** A record added to the store shows up last in the search when it matches and fewer than
      twenty matches were there before; otherwise the search answer is unchanged. */
  lemma SearchAfterAppend(store: LyricsStore, l: Lyrics, matches: Lyrics -> bool)
    ensures matches(l) && |Search(store, matches)| < SearchLimit ==>
      Search(store + [l], matches) == Search(store, matches) + [l]
    ensures !matches(l) || |Search(store, matches)| == SearchLimit ==>
      Search(store + [l], matches) == Search(store, matches)
  {
    var found := Filter(store, matches);
    if matches(l) {
      FilterAppendAccepted(store, l, matches);
      assert Filter(store + [l], matches)[..|found|] == found;
    } else {
      FilterAppendRejected(store, l, matches);
    }
  }

  /** `POST /`: when the track has no lyrics yet, a new record (language defaulting to "en",
      `synced` to false, the synced lines to none, no translations); otherwise the stored
      record gets the new text and, when supplied, new synced lines and translations. A
      missing or empty required field fails the save. */
  function Upsert(store: LyricsStore, id: Id, musicId: Id, title: Option<string>,
                  artist: Option<string>, lyrics: Option<string>, language: Option<string>,
                  synced: Option<bool>, syncedLyrics: Option<seq<SyncedLine>>,
                  translations: Option<seq<Translation>>): (r: Response<LyricsStore, Lyrics>)
    ensures r.Ok? || r.BadRequest?
    ensures r.BadRequest? ==> r.message == SaveFailed
    ensures LocateTrack(store, musicId) == -1 ==>
      && (r.Ok? <==> Truthy(title) && Truthy(artist) && Truthy(lyrics))
      && (r.Ok? ==> (r.store == store + [r.reply]
            && r.reply == Lyrics(id, musicId, title.value, artist.value, lyrics.value,
                                 if Truthy(language) then language.value else "en",
                                 [], synced == Some(true), syncedLyrics.GetOr([]), None, 0)))
    ensures LocateTrack(store, musicId) >= 0 ==>
      var i := LocateTrack(store, musicId);
      var prev := store[i];
      && (r.Ok? <==> Truthy(lyrics))
      && (r.Ok? ==> (SameExcept(store, r.store, i) && r.store[i] == r.reply
            && r.reply.lyrics == lyrics.value
            && r.reply.syncedLyrics == (if syncedLyrics.Some? then syncedLyrics.value else prev.syncedLyrics)
            && r.reply.translations == (if translations.Some? then translations.value else prev.translations)
            && r.reply.(lyrics := prev.lyrics, syncedLyrics := prev.syncedLyrics,
                        translations := prev.translations) == prev))
  {
    var i := LocateTrack(store, musicId);
    if i == -1 then
      if !Truthy(title) || !Truthy(artist) || !Truthy(lyrics) then BadRequest(SaveFailed)
      else
        var l := Lyrics(id, musicId, title.value, artist.value, lyrics.value,
                        OrElse(language, DefaultLanguage), [], synced.GetOr(false),
                        syncedLyrics.GetOr([]), None, 0);
        Ok(store + [l], l)
    else if !Truthy(lyrics) then BadRequest(SaveFailed)
    else
      var l := store[i];
      var l' := l.(lyrics := lyrics.value,
                   syncedLyrics := syncedLyrics.GetOr(l.syncedLyrics),
                   translations := translations.GetOr(l.translations));
      Ok(store[i := l'], l')
  }

  /** What the synced endpoint returns. */
  datatype SyncedView = SyncedView(title: string, artist: string, syncedLyrics: seq<SyncedLine>)

  /** `GET /:id/synced`: 404 for an unknown id, 400 for lyrics that are not synced, and
      otherwise the title, artist and timed lines only. Nothing is written. */
  function GetSynced(store: LyricsStore, id: Id): (r: Response<LyricsStore, SyncedView>)
    ensures r.NotFound? <==> Locate(store, id) == -1
    ensures r.NotFound? ==> r.message == NotFoundMessage
    ensures r.BadRequest? <==> Locate(store, id) >= 0 && !store[Locate(store, id)].synced
    ensures r.BadRequest? ==> r.message == NotSyncedMessage
    ensures !r.ServerError?
    ensures r.Ok? ==>
      var l := store[Locate(store, id)];
      r.store == store && l.synced
      && r.reply.title == l.title && r.reply.artist == l.artist && r.reply.syncedLyrics == l.syncedLyrics
  {
    var i := Locate(store, id);
    if i == -1 then NotFound(NotFoundMessage)
    else if !store[i].synced then BadRequest(NotSyncedMessage)
    else Ok(store, SyncedView(store[i].title, store[i].artist, store[i].syncedLyrics))
  }

  // ---- Properties relating several requests ----

  /** The lookup by track only depends on the track ids. */
  lemma LocateTrackFrame(store: LyricsStore, store': LyricsStore, musicId: Id)
    requires |store| == |store'|
    requires forall k :: 0 <= k < |store| ==> store[k].musicId == store'[k].musicId
    ensures LocateTrack(store, musicId) == LocateTrack(store', musicId)
  {
    FindIndexFrame(store, store', (l: Lyrics) => l.musicId == musicId);
  }

  /** An upsert never adds a second record for a track: one record per track stays true,
      and afterwards the track's record is the one the upsert returned. */
  lemma UpsertKeepsTracksUnique(store: LyricsStore, id: Id, musicId: Id, title: Option<string>,
                                artist: Option<string>, lyrics: Option<string>, language: Option<string>,
                                synced: Option<bool>, syncedLyrics: Option<seq<SyncedLine>>,
                                translations: Option<seq<Translation>>)
    requires UniqueTracks(store)
    requires Upsert(store, id, musicId, title, artist, lyrics, language, synced, syncedLyrics, translations).Ok?
    ensures var r := Upsert(store, id, musicId, title, artist, lyrics, language, synced, syncedLyrics, translations);
      && UniqueTracks(r.store)
      && 0 <= LocateTrack(r.store, musicId) && r.store[LocateTrack(r.store, musicId)] == r.reply
  {
    var r := Upsert(store, id, musicId, title, artist, lyrics, language, synced, syncedLyrics, translations);
    if LocateTrack(store, musicId) == -1 {
      assert r.store[|store|] == r.reply;
    } else {
      LocateTrackFrame(store, r.store, musicId);
    }
  }

  /** Fetching a track's lyrics twice counts two views. */
  lemma GetCountsEveryView(store: LyricsStore, musicId: Id)
    requires LocateTrack(store, musicId) >= 0
    ensures GetByTrack(store, musicId).Ok? && GetByTrack(GetByTrack(store, musicId).store, musicId).Ok?
    ensures GetByTrack(GetByTrack(store, musicId).store, musicId).reply.views
         == store[LocateTrack(store, musicId)].views + 2
  {
    LocateTrackFrame(store, GetByTrack(store, musicId).store, musicId);
  }

  /** Updating an existing record twice with the same request is updating it once. */
  lemma UpdateIdempotent(store: LyricsStore, id: Id, musicId: Id, title: Option<string>,
                         artist: Option<string>, lyrics: Option<string>, language: Option<string>,
                         synced: Option<bool>, syncedLyrics: Option<seq<SyncedLine>>,
                         translations: Option<seq<Translation>>)
    requires LocateTrack(store, musicId) >= 0
    ensures var r := Upsert(store, id, musicId, title, artist, lyrics, language, synced, syncedLyrics, translations);
      r.Ok? ==> Upsert(r.store, id, musicId, title, artist, lyrics, language, synced, syncedLyrics, translations) == r
  {
    var r := Upsert(store, id, musicId, title, artist, lyrics, language, synced, syncedLyrics, translations);
    if r.Ok? {
      var i := LocateTrack(store, musicId);
      LocateTrackFrame(store, r.store, musicId);
      assert r.store[i := r.store[i]] == r.store;
    }
  }

  /** Translations sent with the request that creates a record are dropped; the same request
      sent again, now an update, stores them. */
  lemma TranslationsOnlyOnUpdate(store: LyricsStore, id: Id, musicId: Id, title: Option<string>,
                                 artist: Option<string>, lyrics: Option<string>, language: Option<string>,
                                 synced: Option<bool>, syncedLyrics: Option<seq<SyncedLine>>,
                                 t: seq<Translation>)
    requires LocateTrack(store, musicId) == -1
    requires Truthy(title) && Truthy(artist) && Truthy(lyrics)
    ensures var r := Upsert(store, id, musicId, title, artist, lyrics, language, synced, syncedLyrics, Some(t));
      && r.Ok? && r.reply.translations == []
      && Upsert(r.store, id, musicId, title, artist, lyrics, language, synced, syncedLyrics, Some(t)).Ok?
      && Upsert(r.store, id, musicId, title, artist, lyrics, language, synced, syncedLyrics, Some(t)).reply.translations == t
  {
    var r := Upsert(store, id, musicId, title, artist, lyrics, language, synced, syncedLyrics, Some(t));
    assert r.store[|store|].musicId == musicId;
  }

  /** A freshly created record is synced exactly when the request said `synced: true`, and
      the synced endpoint then answers with the supplied lines. */
  lemma CreatedSyncedIsServed(store: LyricsStore, id: Id, musicId: Id, title: Option<string>,
                              artist: Option<string>, lyrics: Option<string>, language: Option<string>,
                              synced: Option<bool>, syncedLyrics: Option<seq<SyncedLine>>)
    requires Locate(store, id) == -1 && LocateTrack(store, musicId) == -1
    requires Truthy(title) && Truthy(artist) && Truthy(lyrics)
    ensures var r := Upsert(store, id, musicId, title, artist, lyrics, language, synced, syncedLyrics, None);
      && r.Ok?
      && (GetSynced(r.store, id).Ok? <==> synced == Some(true))
      && (GetSynced(r.store, id).BadRequest? <==> synced != Some(true))
      && (synced == Some(true) ==> GetSynced(r.store, id).reply.syncedLyrics == syncedLyrics.GetOr([]))
  {
    var r := Upsert(store, id, musicId, title, artist, lyrics, language, synced, syncedLyrics, None);
    assert r.store[|store|] == r.reply;
    assert Locate(r.store, id) == |store|;
  }
}

=== FILE: models.dfy ===
/** The documents the backend stores, with the defaults and validation of their Mongoose
    schemas (backend/models). A collection is a sequence of documents in the store's natural
    order, so `findOne` is "the first document that matches". */
module Models {
  import opened Wrappers

  /** A document id or user id (an ObjectId or its string form). */
  type Id = string

  /** A Date, in milliseconds since the epoch. */
  type Millis = int

  /** `store'` differs from `store` at most at position `i`. */
  predicate SameExcept<T(==)>(store: seq<T>, store': seq<T>, i: int) {
    |store'| == |store| && forall k :: 0 <= k < |store| && k != i ==> store'[k] == store[k]
  }

  /** The message of a failed save (a schema validation error or a unique-index violation). */
  const SaveFailed := "Validation failed"

  // ---- Profile (backend/models/Profile.js) ----

  const DefaultAvatar := "https://via.placeholder.com/100"

  datatype Profile = Profile(
    id: Id,
    username: string,
    email: string,
    avatar: string,
    bio: string,
    postsCount: int,
    followersCount: int,
    followingCount: int,
    followers: seq<Id>,
    following: seq<Id>,
    posts: seq<Id>,
    savedPosts: seq<Id>,
    createdAt: Millis)

  // ---- Post (backend/models/Post.js) ----

  datatype Comment = Comment(author: Option<string>, text: Option<string>, timestamp: Millis)

  datatype Post = Post(
    id: Id,
    author: string,
    content: string,
    image: Option<string>,       // default null
    likes: int,
    likedBy: seq<Id>,
    comments: seq<Comment>,
    shares: int,
    savedBy: seq<Id>,
    timestamp: Millis,
    updatedAt: Millis)

  // ---- Music (backend/models/Music.js) ----

  datatype Like = Like(userId: Id)

  datatype Music = Music(
    id: Id,
    title: string,
    artist: string,
    album: Option<string>,
    duration: Option<int>,       // seconds
    imageUrl: Option<string>,
    audioUrl: Option<string>,
    spotifyId: Option<string>,   // unique where present
    genre: seq<string>,
    plays: int,
    likes: seq<Like>,
    likedBy: seq<Id>,
    uploadedBy: Option<Id>)

  // ---- Story (backend/models/Story.js) ----

  /** A story's default lifetime: 24 hours. */
  const StoryLifetime: int := 24 * 60 * 60 * 1000

  datatype Story = Story(
    id: Id,
    author: string,
    image: string,
    views: int,
    viewedBy: seq<Id>,
    timestamp: Millis,
    expiresAt: Millis)

  // ---- Lyrics (backend/models/Lyrics.js) ----

  const DefaultLanguage := "en"

  datatype Translation = Translation(language: Option<string>, lyrics: Option<string>)

  datatype SyncedLine = SyncedLine(timestamp: Option<int>, text: Option<string>)

  datatype Lyrics = Lyrics(
    id: Id,
    musicId: Id,                 // unique
    title: string,
    artist: string,
    lyrics: string,
    language: string,
    translations: seq<Translation>,
    synced: bool,
    syncedLyrics: seq<SyncedLine>,
    source: Option<string>,
    views: int)

  // ---- SpotifyIntegration (backend/models/SpotifyIntegration.js) ----

  /** The values the `userType` enum admits. */
  predicate ValidUserType(t: string) {
    t == "artist" || t == "listener"
  }

  datatype PlaylistRef = PlaylistRef(spotifyPlaylistId: Option<string>, name: Option<string>, tracks: Option<int>)

  datatype Integration = Integration(
    userId: Id,                  // unique
    userType: string,
    spotifyId: string,           // unique
    spotifyUsername: Option<string>,
    displayName: Option<string>,
    email: Option<string>,
    profileImage: Option<string>,
    accessToken: string,
    refreshToken: Option<string>,
    expiresAt: Millis,
    followers: Option<int>,
    following: Option<int>,
    genres: seq<string>,
    popularity: Option<int>,
    linkedTracks: seq<Id>,
    playlists: seq<PlaylistRef>,
    connectedAt: Millis)
}

=== FILE: music.dfy ===
/** The music routes (backend/routes/music.js): the top-50 listing, the play counter, track
    creation, the like toggle and delete. */
module MusicRoutes {
  import opened Wrappers
  import opened Js
  import opened Sorting
  import opened Models

  type Tracks = seq<Music>

  const NotFoundMessage := "Music not found"
  const DeletedMessage := "Music deleted"

  /** The listing's `.limit(50)`. */
  const ListLimit: nat := 50

  /** `Music.findById(id)`: the position of the first track with that id, or -1. */
  function Locate(store: Tracks, id: Id): (i: int)
    ensures -1 <= i < |store|
    ensures i == -1 <==> forall k :: 0 <= k < |store| ==> store[k].id != id
    ensures 0 <= i ==> store[i].id == id && forall k :: 0 <= k < i ==> store[k].id != id
  {
    FindIndex(store, (m: Music) => m.id == id)
  }

  /** The lookup by id only depends on the ids. */
  lemma LocateFrame(store: Tracks, store': Tracks, id: Id)
    requires |store| == |store'|
    requires forall k :: 0 <= k < |store| ==> store[k].id == store'[k].id
    ensures Locate(store, id) == Locate(store', id)
  {
    FindIndexFrame(store, store', (m: Music) => m.id == id);
  }

  /** `GET /`: the tracks the query's filter accepts (genre, artist and search; here any
      predicate), most played first, at most 50. Every accepted track that is left out has
      no more plays than any listed one. */
  function ListMusic(store: Tracks, accepts: Music -> bool): (r: seq<Music>)
    ensures |r| <= ListLimit
    ensures SortedDesc(r, (m: Music) => m.plays)
    ensures forall k :: 0 <= k < |r| ==> r[k] in store && accepts(r[k])
    ensures multiset(r) <= multiset(store)
    ensures forall j :: 0 <= j < |store| && accepts(store[j])
                        && multiset(r)[store[j]] < multiset(store)[store[j]] ==>
      |r| == ListLimit && forall k :: 0 <= k < |r| ==> r[k].plays >= store[j].plays
  {
    var matching := Filter(store, accepts);
    var sorted := SortDesc(matching, (m: Music) => m.plays);
    ListedAreAccepted(store, accepts, matching, sorted);
    ListedOrOutranked(store, accepts, matching, sorted);
    Take(sorted, ListLimit)
  }

  /** The first 50 of the sorted matches are accepted tracks of the collection. */
  lemma ListedAreAccepted(store: Tracks, accepts: Music -> bool, matching: seq<Music>, sorted: seq<Music>)
    requires matching == Filter(store, accepts)
    requires multiset(sorted) == multiset(matching)
    ensures forall k :: 0 <= k < |Take(sorted, ListLimit)| ==>
      Take(sorted, ListLimit)[k] in store && accepts(Take(sorted, ListLimit)[k])
    ensures multiset(Take(sorted, ListLimit)) <= multiset(store)
  {
    var r := Take(sorted, ListLimit);
    FilterMembers(store, accepts);
    TakeSubMultiset(sorted, ListLimit);
    forall k | 0 <= k < |r| ensures r[k] in store && accepts(r[k]) {
      assert r[k] in multiset(sorted);
      assert r[k] in matching;
    }
  }

  /** Every copy of each accepted track either makes the first 50 or is outranked by all of
      them. */
  lemma ListedOrOutranked(store: Tracks, accepts: Music -> bool, matching: seq<Music>, sorted: seq<Music>)
    requires matching == Filter(store, accepts)
    requires SortedDesc(sorted, (m: Music) => m.plays) && multiset(sorted) == multiset(matching)
    ensures forall j :: 0 <= j < |store| && accepts(store[j])
                        && multiset(Take(sorted, ListLimit))[store[j]] < multiset(store)[store[j]] ==>
      |Take(sorted, ListLimit)| == ListLimit
      && forall k :: 0 <= k < ListLimit ==> Take(sorted, ListLimit)[k].plays >= store[j].plays
  {
    forall j | 0 <= j < |store| && accepts(store[j])
               && multiset(Take(sorted, ListLimit))[store[j]] < multiset(store)[store[j]]
      ensures |Take(sorted, ListLimit)| == ListLimit
      ensures forall k :: 0 <= k < ListLimit ==> Take(sorted, ListLimit)[k].plays >= store[j].plays
    {
      FilterCount(store, accepts, store[j]);
      TakeOfSortedOutranksCopy(sorted, ListLimit, (m: Music) => m.plays, store[j]);
    }
  }

  /** `GET /:id`: answers the track and counts one more play, whoever asks. */
  function GetMusic(store: Tracks, id: Id): (r: Response<Tracks, Music>)
    ensures r.Ok? || r.NotFound?
    ensures r.NotFound? <==> Locate(store, id) == -1
    ensures r.NotFound? ==> r.message == NotFoundMessage
    ensures r.Ok? ==>
      var i := Locate(store, id);
      && SameExcept(store, r.store, i) && r.store[i] == r.reply
      && r.reply.plays == store[i].plays + 1
      && r.reply.(plays := store[i].plays) == store[i]
  {
    var i := Locate(store, id);
    if i == -1 then NotFound(NotFoundMessage)
    else
      var m := store[i].(plays := store[i].plays + 1);
      Ok(store[i := m], m)
  }

  /** The collection after `n` fetches of the same track. */
  function FetchTimes(store: Tracks, id: Id, n: nat): Tracks
    decreases n
  {
    if n == 0 then store
    else
      var r := GetMusic(store, id);
      if r.Ok? then FetchTimes(r.store, id, n - 1) else store
  }

  /** `n` fetches of an existing track add exactly `n` plays: no caller is deduplicated. */
  lemma {:induction false} PlaysCountEveryFetch(store: Tracks, id: Id, n: nat)
    requires Locate(store, id) >= 0
    ensures |FetchTimes(store, id, n)| == |store|
    ensures Locate(FetchTimes(store, id, n), id) == Locate(store, id)
    ensures var i := Locate(store, id);
      FetchTimes(store, id, n)[i].plays == store[i].plays + n
      && FetchTimes(store, id, n)[i].(plays := store[i].plays) == store[i]
    decreases n
  {
    if n > 0 {
      var s1 := GetMusic(store, id).store;
      LocateFrame(store, s1, id);
      PlaysCountEveryFetch(s1, id, n - 1);
    }
  }

  /** `POST /`: a new track with no plays and no likes; `genre` defaults to the empty list
      when absent. A missing or empty title or artist, or a Spotify id another track already
      carries, makes the save fail. */
  function CreateMusic(store: Tracks, id: Id, title: Option<string>, artist: Option<string>,
                       album: Option<string>, duration: Option<int>, imageUrl: Option<string>,
                       audioUrl: Option<string>, spotifyId: Option<string>, genre: Option<seq<string>>,
                       uploadedBy: Option<Id>): (r: Response<Tracks, Music>)
    ensures r.Ok? || r.BadRequest?
    ensures r.Ok? <==> (Truthy(title) && Truthy(artist)
      && (spotifyId.Some? ==> forall k :: 0 <= k < |store| ==> store[k].spotifyId != spotifyId))
    ensures r.Ok? ==> (r.store == store + [r.reply]
      && r.reply.id == id && r.reply.title == title.value && r.reply.artist == artist.value
      && r.reply.album == album && r.reply.duration == duration && r.reply.imageUrl == imageUrl
      && r.reply.audioUrl == audioUrl && r.reply.spotifyId == spotifyId && r.reply.uploadedBy == uploadedBy
      && r.reply.genre == (if genre.Some? then genre.value else [])
      && r.reply.plays == 0 && r.reply.likes == [] && r.reply.likedBy == [])
  {
    if !Truthy(title) || !Truthy(artist) then BadRequest(SaveFailed)
    else if spotifyId.Some? && exists k :: 0 <= k < |store| && store[k].spotifyId == spotifyId then
      BadRequest(SaveFailed)
    else
      var m := Music(id, title.value, artist.value, album, duration, imageUrl, audioUrl, spotifyId,
                     genre.GetOr([]), 0, [], [], uploadedBy);
      Ok(store + [m], m)
  }

  /** The like toggle on one track. A user not in `likedBy` is appended to it and a
      `{userId}` entry to `likes`; a user in `likedBy` loses the first occurrence there and
      every `likes` entry with that user id. Nothing else about the track changes. */
  function ToggleLists(m: Music, userId: Id): (m': Music)
    ensures m'.(likes := m.likes, likedBy := m.likedBy) == m
    ensures userId !in m.likedBy ==>
      m'.likedBy == m.likedBy + [userId] && m'.likes == m.likes + [Like(userId)]
    ensures userId in m.likedBy ==>
      var k := IndexOf(m.likedBy, userId);
      m'.likedBy == RemoveAt(m.likedBy, k)
    ensures userId in m.likedBy ==> m'.likes == WithoutLikesBy(m.likes, userId)
    ensures NoDup(m.likedBy) ==> (userId in m'.likedBy <==> userId !in m.likedBy)
  {
    var index := IndexOf(m.likedBy, userId);
    if index == -1 then m.(likedBy := m.likedBy + [userId], likes := m.likes + [Like(userId)])
    else
      RemoveFoundNoDupIfNoDup(m.likedBy, userId);
      m.(likedBy := SpliceOne(m.likedBy, index), likes := WithoutLikesBy(m.likes, userId))
  }

  /** `likes.filter(like => like.userId !== userId)`: every entry of that user goes, and every
      other entry stays, once per occurrence and in its order. */
  function WithoutLikesBy(likes: seq<Like>, userId: Id): (r: seq<Like>)
    ensures forall q :: 0 <= q < |r| ==> r[q] in likes && r[q].userId != userId
    ensures forall q :: 0 <= q < |likes| && likes[q].userId != userId ==> likes[q] in r
    ensures multiset(r) == multiset(likes)[Like(userId) := 0]
    ensures IsSubsequence(r, likes)
  {
    FilterMembers(likes, (l: Like) => l.userId != userId);
    FilterRejectMultiset(likes, Like(userId), (l: Like) => l.userId != userId);
    FilterSubsequence(likes, (l: Like) => l.userId != userId);
    Filter(likes, (l: Like) => l.userId != userId)
  }

  /** Those facts decide the result: any list that keeps the other users' entries in order,
      once per occurrence, and drops the user's is exactly what the filter gives. */
  lemma WithoutLikesByIsExact(likes: seq<Like>, userId: Id, r: seq<Like>)
    requires IsSubsequence(r, likes) && multiset(r) == multiset(likes)[Like(userId) := 0]
    ensures r == WithoutLikesBy(likes, userId)
  {
    OnlySubsequenceWithout(r, likes, Like(userId), (l: Like) => l.userId != userId);
  }

  /** `PUT /:id/like`: toggles the user's like on the track (see `ToggleLists`). */
  function ToggleLike(store: Tracks, id: Id, userId: Id): (r: Response<Tracks, Music>)
    ensures r.Ok? || r.NotFound?
    ensures r.NotFound? <==> Locate(store, id) == -1
    ensures r.NotFound? ==> r.message == NotFoundMessage
    ensures r.Ok? ==>
      var i := Locate(store, id);
      && SameExcept(store, r.store, i) && r.store[i] == r.reply
      && r.reply == ToggleLists(store[i], userId)
  {
    var i := Locate(store, id);
    if i == -1 then NotFound(NotFoundMessage)
    else
      var m' := ToggleLists(store[i], userId);
      Ok(store[i := m'], m')
  }

  /** Removing what `indexOf` finds from a list without duplicates leaves the value absent. */
  lemma RemoveFoundNoDupIfNoDup(s: seq<Id>, x: Id)
    requires x in s
    ensures NoDup(s) ==> x !in RemoveAt(s, IndexOf(s, x))
  {
    if NoDup(s) {
      RemoveFoundNoDup(s, x);
    }
  }

  /** `DELETE /:id`: removes the first track with that id and always answers success, even when
      there was none. */
  function DeleteMusic(store: Tracks, id: Id): (r: Response<Tracks, string>)
    ensures r.Ok? && r.reply == DeletedMessage
    ensures Locate(store, id) == -1 ==> r.store == store
    ensures Locate(store, id) >= 0 ==>
      var i := Locate(store, id);
      && |r.store| == |store| - 1
      && r.store[..i] == store[..i] && r.store[i..] == store[i + 1..]
      && multiset(r.store) == multiset(store) - multiset{store[i]}
  {
    var i := Locate(store, id);
    if i == -1 then Ok(store, DeletedMessage)
    else
      RemoveAtMultiset(store, i);
      Ok(RemoveAt(store, i), DeletedMessage)
  }

  /** No two tracks share an id. */
  predicate UniqueIds(store: Tracks) {
    forall i, j :: 0 <= i < j < |store| ==> store[i].id != store[j].id
  }

  /** No two tracks carry the same Spotify id; tracks without one never clash. */
  predicate UniqueSpotifyIds(store: Tracks) {
    forall i, j :: 0 <= i < j < |store| && store[i].spotifyId.Some? ==> store[i].spotifyId != store[j].spotifyId
  }

  /** Creation keeps Spotify ids unique: a clashing one is refused. */
  lemma CreateKeepsSpotifyIdsUnique(store: Tracks, id: Id, title: Option<string>, artist: Option<string>,
                                    album: Option<string>, duration: Option<int>, imageUrl: Option<string>,
                                    audioUrl: Option<string>, spotifyId: Option<string>, genre: Option<seq<string>>,
                                    uploadedBy: Option<Id>)
    requires UniqueSpotifyIds(store)
    requires CreateMusic(store, id, title, artist, album, duration, imageUrl, audioUrl, spotifyId, genre, uploadedBy).Ok?
    ensures UniqueSpotifyIds(CreateMusic(store, id, title, artist, album, duration, imageUrl, audioUrl,
                                         spotifyId, genre, uploadedBy).store)
  {
    var s' := CreateMusic(store, id, title, artist, album, duration, imageUrl, audioUrl, spotifyId, genre, uploadedBy).store;
    assert forall k :: 0 <= k < |store| ==> s'[k] == store[k];
  }

  /** A track created under a fresh id is what fetching that id returns, with its first
      play counted. */
  lemma CreateThenGet(store: Tracks, id: Id, title: Option<string>, artist: Option<string>,
                      album: Option<string>, duration: Option<int>, imageUrl: Option<string>,
                      audioUrl: Option<string>, spotifyId: Option<string>, genre: Option<seq<string>>,
                      uploadedBy: Option<Id>)
    requires Locate(store, id) == -1
    requires CreateMusic(store, id, title, artist, album, duration, imageUrl, audioUrl, spotifyId, genre, uploadedBy).Ok?
    ensures var c := CreateMusic(store, id, title, artist, album, duration, imageUrl, audioUrl, spotifyId, genre, uploadedBy);
      && Locate(c.store, id) == |store|
      && GetMusic(c.store, id).Ok?
      && GetMusic(c.store, id).reply == c.reply.(plays := 1)
  {
    var c := CreateMusic(store, id, title, artist, album, duration, imageUrl, audioUrl, spotifyId, genre, uploadedBy);
    assert c.store[|store|] == c.reply;
  }

  /** With unique ids, a deleted track is gone: fetching it again is a 404, and the ids stay
      unique. */
  lemma DeleteThenGetNotFound(store: Tracks, id: Id)
    requires UniqueIds(store)
    ensures UniqueIds(DeleteMusic(store, id).store)
    ensures GetMusic(DeleteMusic(store, id).store, id).NotFound?
  {
    var i := Locate(store, id);
    if i >= 0 {
      var s' := DeleteMusic(store, id).store;
      assert forall k :: 0 <= k < |s'| ==> s'[k] == store[if k < i then k else k + 1];
    }
  }

  // ---- The like toggle ----

  /** The `likes` entries that mirror a list of user ids. */
  function LikesOf(ids: seq<Id>): (r: seq<Like>)
    ensures |r| == |ids|
    ensures forall k :: 0 <= k < |ids| ==> r[k] == Like(ids[k])
  {
    if |ids| == 0 then [] else [Like(ids[0])] + LikesOf(ids[1..])
  }

  /** The two lists run in parallel: `likes` holds one `{userId}` entry per `likedBy` id, in
      the same order, and no user likes twice. */
  predicate Paired(m: Music) {
    NoDup(m.likedBy) && m.likes == LikesOf(m.likedBy)
  }

  /** Filtering the mirrored entries is mirroring the filtered ids. */
  lemma {:induction false} FilterLikesOf(ids: seq<Id>, u: Id)
    ensures Filter(LikesOf(ids), (l: Like) => l.userId != u) == LikesOf(Filter(ids, (x: Id) => x != u))
  {
    if |ids| > 0 {
      assert LikesOf(ids)[1..] == LikesOf(ids[1..]);
      FilterLikesOf(ids[1..], u);
    }
  }

  /** A like toggle keeps the two lists parallel. */
  lemma ToggleKeepsPaired(store: Tracks, id: Id, userId: Id)
    requires ToggleLike(store, id, userId).Ok? && Paired(store[Locate(store, id)])
    ensures Paired(ToggleLike(store, id, userId).reply)
  {
    var m := store[Locate(store, id)];
    var m' := ToggleLike(store, id, userId).reply;
    if userId in m.likedBy {
      RemoveFoundNoDup(m.likedBy, userId);
      FilterLikesOf(m.likedBy, userId);
      FilterDropsOnlyCopy(m.likedBy, userId, (x: Id) => x != userId);
      assert m'.likedBy == RemoveAt(m.likedBy, IndexOf(m.likedBy, userId));
    } else {
      assert LikesOf(m.likedBy + [userId]) == m.likes + [Like(userId)];
    }
  }

  /** Liking twice, from a state where the user is in neither list, restores both lists
      exactly, so everyone else's entries keep their order. */
  lemma LikeTwiceRestores(store: Tracks, id: Id, userId: Id)
    requires Locate(store, id) >= 0
    requires var m := store[Locate(store, id)];
      userId !in m.likedBy && forall q :: 0 <= q < |m.likes| ==> m.likes[q].userId != userId
    ensures ToggleLike(store, id, userId).Ok?
    ensures ToggleLike(ToggleLike(store, id, userId).store, id, userId) == Ok(store, store[Locate(store, id)])
  {
    var i := Locate(store, id);
    var m := store[i];
    var s1 := ToggleLike(store, id, userId).store;
    LocateFrame(store, s1, id);
    AppendThenRemove(m.likedBy, userId);
    FilterAppendRejected(m.likes, Like(userId), (l: Like) => l.userId != userId);
    FilterKeepsAll(m.likes, (l: Like) => l.userId != userId);
    assert s1[i := m] == store;
  }
}

=== FILE: posts.dfy ===
/** The post routes (backend/routes/posts.js): listing, lookup, creation, the engagement
    counters (like, share), comments, saves, patch and delete. */
module PostRoutes {
  import opened Wrappers
  import opened Js
  import opened Sorting
  import opened Models

  type Posts = seq<Post>

  const NotFoundMessage := "Post not found"
  const DeletedMessage := "Post deleted"

  /** `Post.findById(id)`: the position of the first post with that id, or -1. */
  function Locate(store: Posts, id: Id): (i: int)
    ensures -1 <= i < |store|
    ensures i == -1 <==> forall k :: 0 <= k < |store| ==> store[k].id != id
    ensures 0 <= i ==> store[i].id == id && forall k :: 0 <= k < i ==> store[k].id != id
  {
    FindIndex(store, (p: Post) => p.id == id)
  }

  /** No two posts share an id. */
  predicate UniqueIds(store: Posts) {
    forall i, j :: 0 <= i < j < |store| ==> store[i].id != store[j].id
  }

  /** `GET /`: every post, newest first. */
  function ListPosts(store: Posts): (r: seq<Post>)
    ensures multiset(r) == multiset(store)
    ensures SortedDesc(r, (p: Post) => p.timestamp)
  {
    SortDesc(store, (p: Post) => p.timestamp)
  }

  /** `GET /:id`. */
  function GetPost(store: Posts, id: Id): (r: Response<Posts, Post>)
    ensures r.Ok? || r.NotFound?
    ensures r.NotFound? <==> Locate(store, id) == -1
    ensures r.Ok? ==> r.store == store && r.reply.id == id && r.reply in store
  {
    var i := Locate(store, id);
    if i == -1 then NotFound(NotFoundMessage) else Ok(store, store[i])
  }

  /** `POST /`: a new post stamped `now`; a missing or empty author or content fails the
      schema's `required` check. An absent image is stored as null. */
  function CreatePost(store: Posts, id: Id, author: Option<string>, content: Option<string>,
                      image: Option<string>, now: Millis): (r: Response<Posts, Post>)
    ensures r.Ok? || r.BadRequest?
    ensures r.Ok? <==> Truthy(author) && Truthy(content)
    ensures r.Ok? ==> (r.store == store + [r.reply]
      && r.reply.id == id && r.reply.author == author.value && r.reply.content == content.value
      && r.reply.image == image && r.reply.timestamp == now
      && r.reply.likes == 0 && r.reply.shares == 0
      && r.reply.likedBy == [] && r.reply.comments == [] && r.reply.savedBy == [])
  {
    if !Truthy(author) || !Truthy(content) then BadRequest(SaveFailed)
    else
      var p := Post(id, author.value, content.value, image, 0, [], [], 0, [], now, now);
      Ok(store + [p], p)
  }

  /** `PUT /:id/like`: one more like on every call. No per-user check is made and `likedBy`
      is never touched. */
  function Like(store: Posts, id: Id): (r: Response<Posts, Post>)
    ensures r.Ok? || r.NotFound?
    ensures r.NotFound? <==> Locate(store, id) == -1
    ensures r.NotFound? ==> r.message == NotFoundMessage
    ensures r.Ok? ==>
      var i := Locate(store, id);
      && SameExcept(store, r.store, i) && r.store[i] == r.reply
      && r.reply.likes == store[i].likes + 1
      && r.reply.likedBy == store[i].likedBy
      && r.reply.(likes := store[i].likes) == store[i]
  {
    var i := Locate(store, id);
    if i == -1 then NotFound(NotFoundMessage)
    else
      var p := store[i].(likes := store[i].likes + 1);
      Ok(store[i := p], p)
  }

  /** `POST /:id/comment`: one `{author, text, timestamp}` comment goes on the end of the
      post's comments; there is no validation of author or text. */
  function AddComment(store: Posts, id: Id, author: Option<string>, text: Option<string>, now: Millis)
    : (r: Response<Posts, Post>)
    ensures r.Ok? || r.NotFound?
    ensures r.NotFound? <==> Locate(store, id) == -1
    ensures r.NotFound? ==> r.message == NotFoundMessage
    ensures r.Ok? ==>
      var i := Locate(store, id);
      var before := store[i].comments;
      && SameExcept(store, r.store, i) && r.store[i] == r.reply
      && |r.reply.comments| == |before| + 1
      && r.reply.comments[..|before|] == before
      && r.reply.comments[|before|] == Comment(author, text, now)
      && r.reply.(comments := before) == store[i]
  {
    var i := Locate(store, id);
    if i == -1 then NotFound(NotFoundMessage)
    else
      var p := store[i].(comments := store[i].comments + [Comment(author, text, now)]);
      Ok(store[i := p], p)
  }

  /** `PUT /:id/share`: one more share, nothing else. */
  function Share(store: Posts, id: Id): (r: Response<Posts, Post>)
    ensures r.Ok? || r.NotFound?
    ensures r.NotFound? <==> Locate(store, id) == -1
    ensures r.NotFound? ==> r.message == NotFoundMessage
    ensures r.Ok? ==>
      var i := Locate(store, id);
      && SameExcept(store, r.store, i) && r.store[i] == r.reply
      && r.reply.shares == store[i].shares + 1
      && r.reply.(shares := store[i].shares) == store[i]
  {
    var i := Locate(store, id);
    if i == -1 then NotFound(NotFoundMessage)
    else
      var p := store[i].(shares := store[i].shares + 1);
      Ok(store[i := p], p)
  }

  /** `PUT /:id/save`: adds the user to `savedBy` unless already there. There is no counter
      and no unsave. */
  function Save(store: Posts, id: Id, userId: Id): (r: Response<Posts, Post>)
    ensures r.Ok? || r.NotFound?
    ensures r.NotFound? <==> Locate(store, id) == -1
    ensures r.NotFound? ==> r.message == NotFoundMessage
    ensures r.Ok? ==>
      var i := Locate(store, id);
      var before := store[i].savedBy;
      && SameExcept(store, r.store, i) && r.store[i] == r.reply
      && userId in r.reply.savedBy
      && (userId in before ==> r.reply.savedBy == before)
      && (userId !in before ==> r.reply.savedBy == before + [userId])
      && (NoDup(before) ==> NoDup(r.reply.savedBy))
      && r.reply.(savedBy := before) == store[i]
  {
    var i := Locate(store, id);
    if i == -1 then NotFound(NotFoundMessage)
    else
      var before := store[i].savedBy;
      var p := store[i].(savedBy := if userId in before then before else before + [userId]);
      Ok(store[i := p], p)
  }

  /** `DELETE /:id`: removes the first post with that id. */
  function DeletePost(store: Posts, id: Id): (r: Response<Posts, string>)
    ensures r.Ok? || r.NotFound?
    ensures r.NotFound? <==> Locate(store, id) == -1
    ensures r.NotFound? ==> r.message == NotFoundMessage
    ensures r.Ok? ==>
      var i := Locate(store, id);
      && r.reply == DeletedMessage
      && |r.store| == |store| - 1
      && r.store[..i] == store[..i] && r.store[i..] == store[i + 1..]
      && multiset(r.store) == multiset(store) - multiset{store[i]}
  {
    var i := Locate(store, id);
    if i == -1 then NotFound(NotFoundMessage)
    else
      RemoveAtMultiset(store, i);
      Ok(RemoveAt(store, i), DeletedMessage)
  }

  /** `PATCH /:id`: content and image are replaced only by truthy values (an empty string is
      ignored); `updatedAt` is always set to `now`. */
  function Patch(store: Posts, id: Id, content: Option<string>, image: Option<string>, now: Millis)
    : (r: Response<Posts, Post>)
    ensures r.Ok? || r.NotFound?
    ensures r.NotFound? <==> Locate(store, id) == -1
    ensures r.NotFound? ==> r.message == NotFoundMessage
    ensures r.Ok? ==>
      var i := Locate(store, id);
      && SameExcept(store, r.store, i) && r.store[i] == r.reply
      && r.reply.content == (if Truthy(content) then content.value else store[i].content)
      && r.reply.image == (if Truthy(image) then image else store[i].image)
      && r.reply.updatedAt == now
      && r.reply.(content := store[i].content, image := store[i].image, updatedAt := store[i].updatedAt) == store[i]
  {
    var i := Locate(store, id);
    if i == -1 then NotFound(NotFoundMessage)
    else
      var p := store[i];
      var p' := p.(content := OrElse(content, p.content),
                   image := if Truthy(image) then image else p.image,
                   updatedAt := now);
      Ok(store[i := p'], p')
  }

  // ---- Properties relating several requests ----

  /** Liking twice counts twice: the like counter does no per-user deduplication. */
  lemma LikeCountsEveryCall(store: Posts, id: Id)
    requires Locate(store, id) >= 0
    ensures Like(store, id).Ok? && Like(Like(store, id).store, id).Ok?
    ensures var i := Locate(store, id);
      var after := Like(Like(store, id).store, id).reply;
      after.likes == store[i].likes + 2 && after.likedBy == store[i].likedBy
  {
    var s1 := Like(store, id).store;
    LocateFrame(store, s1, id);
  }

  /** Saving twice is saving once. */
  lemma SaveIdempotent(store: Posts, id: Id, userId: Id)
    requires Save(store, id, userId).Ok?
    ensures Save(Save(store, id, userId).store, id, userId) == Save(store, id, userId)
  {
    var s1 := Save(store, id, userId).store;
    LocateFrame(store, s1, id);
    assert s1[Locate(store, id) := s1[Locate(store, id)]] == s1;
  }

  /** Repeating a patch with the same fields and time changes nothing more. */
  lemma PatchIdempotent(store: Posts, id: Id, content: Option<string>, image: Option<string>, now: Millis)
    requires Patch(store, id, content, image, now).Ok?
    ensures Patch(Patch(store, id, content, image, now).store, id, content, image, now)
         == Patch(store, id, content, image, now)
  {
    var s1 := Patch(store, id, content, image, now).store;
    LocateFrame(store, s1, id);
    assert s1[Locate(store, id) := s1[Locate(store, id)]] == s1;
  }

  /** With unique ids, a deleted post is gone: looking it up again is a 404, and the ids stay
      unique. */
  lemma DeleteThenGetNotFound(store: Posts, id: Id)
    requires UniqueIds(store) && DeletePost(store, id).Ok?
    ensures UniqueIds(DeletePost(store, id).store)
    ensures GetPost(DeletePost(store, id).store, id).NotFound?
  {
    var i := Locate(store, id);
    var s' := DeletePost(store, id).store;
    assert forall k :: 0 <= k < |s'| ==> s'[k] == store[if k < i then k else k + 1];
  }

  /** A post created under a fresh id is what looking that id up returns. */
  lemma CreateThenGet(store: Posts, id: Id, author: Option<string>, content: Option<string>,
                      image: Option<string>, now: Millis)
    requires Locate(store, id) == -1
    requires CreatePost(store, id, author, content, image, now).Ok?
    ensures var c := CreatePost(store, id, author, content, image, now);
      GetPost(c.store, id) == Ok(c.store, c.reply)
  {
    var c := CreatePost(store, id, author, content, image, now);
    assert c.store[|store|] == c.reply;
  }

  /** The lookup by id only depends on the ids. */
  lemma LocateFrame(store: Posts, store': Posts, id: Id)
    requires |store| == |store'|
    requires forall k :: 0 <= k < |store| ==> store[k].id == store'[k].id
    ensures Locate(store, id) == Locate(store', id)
  {
    FindIndexFrame(store, store', (p: Post) => p.id == id);
  }

  // ---- Engagement only grows ----

  /** The requests that change a post in place. */
  datatype Mutation =
    | LikeIt(id: Id)
    | ShareIt(id: Id)
    | CommentOn(id: Id, author: Option<string>, text: Option<string>, at: Millis)
    | SaveFor(id: Id, userId: Id)
    | PatchIt(id: Id, content: Option<string>, image: Option<string>, at: Millis)

  /** The collection after one request; a 404 leaves it as it was. */
  function Apply(store: Posts, m: Mutation): Posts {
    var r := match m
      case LikeIt(id) => Like(store, id)
      case ShareIt(id) => Share(store, id)
      case CommentOn(id, author, text, at) => AddComment(store, id, author, text, at)
      case SaveFor(id, userId) => Save(store, id, userId)
      case PatchIt(id, content, image, at) => Patch(store, id, content, image, at);
    if r.Ok? then r.store else store
  }

  /** The collection after a sequence of requests. */
  function ApplyAll(store: Posts, ms: seq<Mutation>): Posts
    decreases |ms|
  {
    if |ms| == 0 then store else ApplyAll(Apply(store, ms[0]), ms[1..])
  }

  /** `b` is `a` with no engagement lost: same id, likes and shares not lower, the earlier
      comments and saves still first, in order, and `likedBy` as it was. */
  predicate Grows(a: Post, b: Post) {
    && b.id == a.id
    && a.likes <= b.likes && a.shares <= b.shares
    && a.comments <= b.comments
    && a.savedBy <= b.savedBy
    && b.likedBy == a.likedBy
  }

  lemma OneMutationGrows(store: Posts, m: Mutation)
    ensures |Apply(store, m)| == |store|
    ensures forall k :: 0 <= k < |store| ==> Grows(store[k], Apply(store, m)[k])
  {
  }

  /** Whatever sequence of in-place requests arrives, every post keeps its id, its counters
      never go down, and comments and saves are only appended to. */
  lemma {:induction false} MutationsOnlyGrow(store: Posts, ms: seq<Mutation>)
    ensures |ApplyAll(store, ms)| == |store|
    ensures forall k :: 0 <= k < |store| ==> Grows(store[k], ApplyAll(store, ms)[k])
    decreases |ms|
  {
    if |ms| > 0 {
      var s1 := Apply(store, ms[0]);
      OneMutationGrows(store, ms[0]);
      MutationsOnlyGrow(s1, ms[1..]);
      forall k | 0 <= k < |store| ensures Grows(store[k], ApplyAll(store, ms)[k]) {
        var a, b, c := store[k], s1[k], ApplyAll(s1, ms[1..])[k];
        assert Grows(a, b) && Grows(b, c);
        assert a.comments <= c.comments by {
          assert a.comments == b.comments[..|a.comments|];
          assert b.comments == c.comments[..|b.comments|];
        }
        assert a.savedBy <= c.savedBy by {
          assert a.savedBy == b.savedBy[..|a.savedBy|];
          assert b.savedBy == c.savedBy[..|b.savedBy|];
        }
      }
    }
  }
}

=== FILE: profile.dfy ===
/** The profile routes (backend/routes/profile.js): create, update, follow and unfollow.
    There is no authentication: "the current user" is whatever `Profile.findOne()` returns,
    the first profile of the collection. */
module ProfileRoutes {
  import opened Wrappers
  import opened Js
  import opened Models

  type Profiles = seq<Profile>

  const NotFoundMessage := "Profile not found"
  const FollowedMessage := "Followed successfully"
  const UnfollowedMessage := "Unfollowed successfully"

  /** `Profile.findOne({ username })`: the position of the first profile with that username,
      or -1. */
  function FindByUsername(store: Profiles, name: string): (i: int)
    ensures -1 <= i < |store|
    ensures i == -1 <==> forall k :: 0 <= k < |store| ==> store[k].username != name
    ensures 0 <= i ==> store[i].username == name && forall k :: 0 <= k < i ==> store[k].username != name
  {
    FindIndex(store, (p: Profile) => p.username == name)
  }

  /** No two profiles share a username. */
  predicate UniqueUsernames(store: Profiles) {
    forall i, j :: 0 <= i < j < |store| ==> store[i].username != store[j].username
  }

  /** `POST /`: a new profile, with the placeholder avatar and an empty bio unless truthy values
      are given. A missing or empty username or email, or one already taken, makes the save
      fail. */
  function CreateProfile(store: Profiles, id: Id, username: Option<string>, email: Option<string>,
                         avatar: Option<string>, bio: Option<string>, now: Millis): (r: Response<Profiles, Profile>)
    ensures r.Ok? || r.BadRequest?
    ensures r.Ok? <==> (Truthy(username) && Truthy(email)
      && forall k :: 0 <= k < |store| ==> store[k].username != username.value && store[k].email != email.value)
    ensures r.Ok? ==> r.store == store + [r.reply]
    ensures r.Ok? ==> (r.reply.username == username.value && r.reply.email == email.value
      && r.reply.avatar == (if Truthy(avatar) then avatar.value else DefaultAvatar)
      && r.reply.bio == (if Truthy(bio) then bio.value else "")
      && r.reply.followers == [] && r.reply.following == [] && r.reply.posts == [] && r.reply.savedPosts == []
      && r.reply.followersCount == 0 && r.reply.followingCount == 0 && r.reply.postsCount == 0)
    ensures r.Ok? && UniqueUsernames(store) ==> UniqueUsernames(r.store)
  {
    if !Truthy(username) || !Truthy(email) then BadRequest(SaveFailed)
    else if exists k :: 0 <= k < |store| && (store[k].username == username.value || store[k].email == email.value) then
      BadRequest(SaveFailed)
    else
      var p := Profile(id, username.value, email.value, OrElse(avatar, DefaultAvatar), OrElse(bio, ""),
                       0, 0, 0, [], [], [], [], now);
      Ok(store + [p], p)
  }

  /** `PUT /`: overwrites bio, avatar and username of the current user with each value that is
      present, an empty string included. Setting the username to "" fails the `required`
      check, and a username another profile holds fails the unique index; both answer 400. */
  function UpdateProfile(store: Profiles, bio: Option<string>, avatar: Option<string>, username: Option<string>)
    : (r: Response<Profiles, Profile>)
    ensures r.NotFound? <==> |store| == 0
    ensures r.BadRequest? <==> (|store| > 0 && username.Some?
      && (username.value == "" || exists k :: 1 <= k < |store| && store[k].username == username.value))
    ensures r.Ok? ==> (|r.store| == |store| && r.store[0] == r.reply
      && forall k :: 1 <= k < |store| ==> r.store[k] == store[k])
    ensures r.Ok? ==> (r.reply.bio == (if bio.Some? then bio.value else store[0].bio)
      && r.reply.avatar == (if avatar.Some? then avatar.value else store[0].avatar)
      && r.reply.username == (if username.Some? then username.value else store[0].username))
    ensures r.Ok? ==> r.reply.(bio := store[0].bio, avatar := store[0].avatar, username := store[0].username) == store[0]
  {
    if |store| == 0 then NotFound(NotFoundMessage)
    else if username.Some? && (username.value == "" || exists k :: 1 <= k < |store| && store[k].username == username.value) then
      BadRequest(SaveFailed)
    else
      var p := store[0];
      var p' := p.(bio := bio.GetOr(p.bio), avatar := avatar.GetOr(p.avatar), username := username.GetOr(p.username));
      Ok(store[0 := p'], p')
  }

  /** The follow request is not a self-follow: the target username is not the current
      user's. */
  predicate NotSelf(store: Profiles, name: string) {
    |store| > 0 ==> store[0].username != name
  }

  /** `PUT /:username/follow`. When the current user does not yet follow the target, the
      target's id is appended to the user's `following` and the user's id to the target's
      `followers`, and both counters go up by one; otherwise nothing changes. Either way the
      reply is a success. */
  function Follow(store: Profiles, name: string): (r: Response<Profiles, string>)
    requires NotSelf(store, name)
    ensures r.Ok? || r.NotFound?
    ensures r.NotFound? <==> |store| == 0 || FindByUsername(store, name) == -1
    ensures r.NotFound? ==> r.message == NotFoundMessage
    ensures r.Ok? ==> r.reply == FollowedMessage && |r.store| == |store|
    ensures r.Ok? ==>
      var t := FindByUsername(store, name);
      var user := store[0];
      var target := store[t];
      0 < t
      && (target.id in user.following ==> r.store == store)
      && (target.id !in user.following ==>
           && r.store[0].following == user.following + [target.id]
           && r.store[0].followingCount == user.followingCount + 1
           && r.store[0].(following := user.following, followingCount := user.followingCount) == user
           && r.store[t].followers == target.followers + [user.id]
           && r.store[t].followersCount == target.followersCount + 1
           && r.store[t].(followers := target.followers, followersCount := target.followersCount) == target
           && forall k :: 0 < k < |store| && k != t ==> r.store[k] == store[k])
  {
    if |store| == 0 then NotFound(NotFoundMessage)
    else
      var t := FindByUsername(store, name);
      if t == -1 then NotFound(NotFoundMessage)
      else
        var user := store[0];
        var target := store[t];
        if target.id in user.following then Ok(store, FollowedMessage)
        else
          var pair := Link(user, target);
          Ok(store[0 := pair.0][t := pair.1], FollowedMessage)
  }

  /** The two profiles after `user` follows `target`: each id goes on the end of the other's
      list and both counters go up by one. */
  function Link(user: Profile, target: Profile): (r: (Profile, Profile))
    ensures r.0.following == user.following + [target.id]
    ensures r.0.followingCount == user.followingCount + 1
    ensures r.0.(following := user.following, followingCount := user.followingCount) == user
    ensures r.1.followers == target.followers + [user.id]
    ensures r.1.followersCount == target.followersCount + 1
    ensures r.1.(followers := target.followers, followersCount := target.followersCount) == target
  {
    (user.(following := user.following + [target.id], followingCount := user.followingCount + 1),
     target.(followers := target.followers + [user.id], followersCount := target.followersCount + 1))
  }

  /** `PUT /:username/unfollow`. When the current user follows the target, the first
      occurrence of the target's id leaves the user's `following` and both counters go down by
      one. The user's id is then spliced out of the target's `followers` at whatever
      `indexOf` reports, unchecked: when the user is not listed there, that index is -1 and
      `splice(-1, 1)` drops the target's last follower instead. */
  function Unfollow(store: Profiles, name: string): (r: Response<Profiles, string>)
    requires NotSelf(store, name)
    ensures r.Ok? || r.NotFound?
    ensures r.NotFound? <==> |store| == 0 || FindByUsername(store, name) == -1
    ensures r.NotFound? ==> r.message == NotFoundMessage
    ensures r.Ok? ==> r.reply == UnfollowedMessage && |r.store| == |store|
    ensures r.Ok? ==>
      var t := FindByUsername(store, name);
      var user := store[0];
      var target := store[t];
      0 < t
      && (target.id !in user.following ==> r.store == store)
      && (target.id in user.following ==>
           && (r.store[0], r.store[t]) == Unlink(user, target)
           && forall k :: 0 < k < |store| && k != t ==> r.store[k] == store[k])
  {
    if |store| == 0 then NotFound(NotFoundMessage)
    else
      var t := FindByUsername(store, name);
      if t == -1 then NotFound(NotFoundMessage)
      else
        var user := store[0];
        var target := store[t];
        var followingIndex := IndexOf(user.following, target.id);
        if followingIndex > -1 then
          var pair := Unlink(user, target);
          Ok(store[0 := pair.0][t := pair.1], UnfollowedMessage)
        else Ok(store, UnfollowedMessage)
  }

  /** The two profiles after an unfollow of `target` by `user`, who follows it: the first
      occurrence of the target's id leaves the user's `following`, the user's id is spliced
      out of the target's `followers` at the index `indexOf` reports (the last one when that
      is -1), and both counters go down by one. */
  function Unlink(user: Profile, target: Profile): (r: (Profile, Profile))
    requires target.id in user.following
    ensures r.0.followingCount == user.followingCount - 1
    ensures r.0.(following := user.following, followingCount := user.followingCount) == user
    ensures user.id !in target.followers && |target.followers| > 0 ==>
      r.1.followers == target.followers[..|target.followers| - 1]
    ensures target.followers == [] ==> r.1.followers == []
    ensures r.1.followersCount == target.followersCount - 1
    ensures r.1.(followers := target.followers, followersCount := target.followersCount) == target
  {
    var user' := user.(following := SpliceOne(user.following, IndexOf(user.following, target.id)),
                       followingCount := user.followingCount - 1);
    var target' := target.(followers := SpliceOne(target.followers, IndexOf(target.followers, user.id)),
                           followersCount := target.followersCount - 1);
    (user', target')
  }

  /** An unlink takes one copy of the target's id out of the user's `following` and, when
      the user is listed, one copy of the user's id out of the target's `followers`. */
  lemma UnlinkRemovesOne(user: Profile, target: Profile)
    requires target.id in user.following
    ensures multiset(Unlink(user, target).0.following) == multiset(user.following) - multiset{target.id}
    ensures user.id in target.followers ==>
      multiset(Unlink(user, target).1.followers) == multiset(target.followers) - multiset{user.id}
  {
    SpliceFoundMultiset(user.following, target.id);
    SpliceFoundMultiset(target.followers, user.id);
  }

  /** The username lookup only depends on the usernames. */
  lemma FindByUsernameFrame(store: Profiles, store': Profiles, name: string)
    requires |store| == |store'|
    requires forall k :: 0 <= k < |store| ==> store[k].username == store'[k].username
    ensures FindByUsername(store, name) == FindByUsername(store', name)
  {
    FindIndexFrame(store, store', (p: Profile) => p.username == name);
  }

  // ---- The follow graph ----

  /** Both counters agree with the lists they count, and neither list holds an id twice. */
  predicate Counted(p: Profile) {
    && p.followersCount == |p.followers| && p.followingCount == |p.following|
    && NoDup(p.followers) && NoDup(p.following)
  }

  /** A consistent follow graph: ids are unique, every profile is `Counted`, and B's id is in
      A's `following` exactly when A's id is in B's `followers`. */
  predicate Consistent(store: Profiles) {
    && (forall i, j :: 0 <= i < j < |store| ==> store[i].id != store[j].id)
    && (forall i :: 0 <= i < |store| ==> Counted(store[i]))
    && (forall i, j :: 0 <= i < |store| && 0 <= j < |store| ==>
          (store[j].id in store[i].following <==> store[i].id in store[j].followers))
  }

  /** The target exists, and neither side lists the other. */
  predicate Unlinked(store: Profiles, name: string) {
    && |store| > 0
    && var t := FindByUsername(store, name);
       && t > 0
       && store[t].id !in store[0].following
       && store[0].id !in store[t].followers
  }

  /** An update keeps usernames unique: a username another profile holds is refused. */
  lemma UpdateKeepsUnique(store: Profiles, bio: Option<string>, avatar: Option<string>, username: Option<string>)
    requires UniqueUsernames(store) && UpdateProfile(store, bio, avatar, username).Ok?
    ensures UniqueUsernames(UpdateProfile(store, bio, avatar, username).store)
  {
  }

  /** An update touches neither ids nor follow lists nor counters, so it keeps a consistent
      graph consistent. */
  lemma UpdateKeepsConsistent(store: Profiles, bio: Option<string>, avatar: Option<string>, username: Option<string>)
    requires Consistent(store) && UpdateProfile(store, bio, avatar, username).Ok?
    ensures Consistent(UpdateProfile(store, bio, avatar, username).store)
  {
    var s' := UpdateProfile(store, bio, avatar, username).store;
    assert forall k :: 0 <= k < |s'| ==>
      s'[k].id == store[k].id && s'[k].following == store[k].following && s'[k].followers == store[k].followers
      && s'[k].followingCount == store[k].followingCount && s'[k].followersCount == store[k].followersCount;
  }

  /** Following someone already followed changes nothing, so a repeated follow is
      harmless. */
  lemma FollowIdempotent(store: Profiles, name: string)
    requires NotSelf(store, name) && Follow(store, name).Ok?
    ensures NotSelf(Follow(store, name).store, name)
    ensures Follow(Follow(store, name).store, name) == Follow(store, name)
  {
    var s' := Follow(store, name).store;
    FindByUsernameFrame(store, s', name);
  }

  /** Following and then unfollowing, from a state where the two profiles do not list each
      other, restores both profiles exactly: lists and counters. */
  lemma FollowThenUnfollowRestores(store: Profiles, name: string)
    requires NotSelf(store, name) && Unlinked(store, name)
    ensures Follow(store, name).Ok? && NotSelf(Follow(store, name).store, name)
    ensures Unfollow(Follow(store, name).store, name) == Ok(store, UnfollowedMessage)
  {
    var t := FindByUsername(store, name);
    FollowUnfollowed(store, name);
    UnfollowAfterLink(store, name, t);
  }

  /** When the user does not follow the target yet, a follow writes back the pair `Link`
      gives. */
  lemma FollowUnfollowed(store: Profiles, name: string)
    requires NotSelf(store, name) && |store| > 0 && FindByUsername(store, name) >= 0
    requires store[FindByUsername(store, name)].id !in store[0].following
    ensures var t := FindByUsername(store, name);
      var pair := Link(store[0], store[t]);
      Follow(store, name) == Ok(store[0 := pair.0][t := pair.1], FollowedMessage)
  {
  }

  /** Unfollowing the target of a link that was just made, where neither profile listed the
      other before, restores the store. */
  lemma UnfollowAfterLink(store: Profiles, name: string, t: nat)
    requires Unlinked(store, name) && t == FindByUsername(store, name)
    ensures var linked := Link(store[0], store[t]);
      var s' := store[0 := linked.0][t := linked.1];
      NotSelf(s', name) && Unfollow(s', name) == Ok(store, UnfollowedMessage)
  {
    var user := store[0];
    var target := store[t];
    var linked := Link(user, target);
    var s' := store[0 := linked.0][t := linked.1];
    FindByUsernameFrame(store, s', name);
    assert s'[0] == linked.0 && s'[t] == linked.1;
    UnfollowFollowed(s', name);
    UnlinkUndoesLink(user, target);
    assert s'[0 := user][t := target] == store;
  }

  /** Unlinking right after linking two profiles that did not list each other gives both
      profiles back unchanged. */
  lemma UnlinkUndoesLink(user: Profile, target: Profile)
    requires target.id !in user.following && user.id !in target.followers
    ensures Unlink(Link(user, target).0, Link(user, target).1) == (user, target)
  {
    AppendThenRemove(user.following, target.id);
    AppendThenRemove(target.followers, user.id);
  }

  /** A follow keeps a consistent graph consistent. */
  lemma FollowPreservesConsistency(store: Profiles, name: string)
    requires NotSelf(store, name) && Consistent(store)
    ensures Follow(store, name).Ok? ==> Consistent(Follow(store, name).store)
  {
    if |store| > 0 && FindByUsername(store, name) >= 0 {
      var t := FindByUsername(store, name);
      if store[t].id !in store[0].following {
        LinkPreservesConsistency(store, t);
      }
    }
  }

  /** Linking profile 0 to profile t, in a consistent graph where 0 does not follow t, keeps
      the graph consistent. */
  lemma LinkPreservesConsistency(store: Profiles, t: nat)
    requires Consistent(store) && 0 < t < |store| && store[t].id !in store[0].following
    ensures var pair := Link(store[0], store[t]);
      Consistent(store[0 := pair.0][t := pair.1])
  {
    var user := store[0];
    var target := store[t];
    assert user.id !in target.followers;
    var pair := Link(user, target);
    var s' := store[0 := pair.0][t := pair.1];
    AppendNoDup(user.following, target.id);
    AppendNoDup(target.followers, user.id);
    assert forall k :: 0 <= k < |s'| ==> s'[k].id == store[k].id;
    assert forall i, j :: 0 <= i < j < |s'| ==> s'[i].id != s'[j].id;
    AddEdgeKeepsSymmetry(store, s', t);
    assert forall k :: 0 <= k < |s'| ==> Counted(s'[k]);
  }

  /** Putting the edge from profile 0 to profile t into both of its lists keeps the graph
      symmetric. */
  lemma AddEdgeKeepsSymmetry(store: Profiles, s': Profiles, t: nat)
    requires Consistent(store) && |s'| == |store| && 0 < t < |store|
    requires forall k :: 0 <= k < |s'| ==> s'[k].id == store[k].id
    requires forall k :: 0 < k < |s'| ==> s'[k].following == store[k].following
    requires forall k :: 0 <= k < |s'| && k != t ==> s'[k].followers == store[k].followers
    requires s'[0].following == store[0].following + [store[t].id]
    requires s'[t].followers == store[t].followers + [store[0].id]
    ensures forall i, j :: 0 <= i < |s'| && 0 <= j < |s'| ==>
      (s'[j].id in s'[i].following <==> s'[i].id in s'[j].followers)
  {
    forall i, j | 0 <= i < |s'| && 0 <= j < |s'|
      ensures s'[j].id in s'[i].following <==> s'[i].id in s'[j].followers
    {
      assert s'[j].id == store[t].id <==> j == t;
      assert s'[i].id == store[0].id <==> i == 0;
    }
  }

  /** Taking the edge from profile 0 to profile t out of both of its lists keeps the graph
      symmetric. */
  lemma DropEdgeKeepsSymmetry(store: Profiles, s': Profiles, t: nat)
    requires Consistent(store) && |s'| == |store| && 0 < t < |store|
    requires forall k :: 0 <= k < |s'| ==> s'[k].id == store[k].id
    requires forall k :: 0 < k < |s'| ==> s'[k].following == store[k].following
    requires forall k :: 0 <= k < |s'| && k != t ==> s'[k].followers == store[k].followers
    requires forall y :: y in s'[0].following <==> y in store[0].following && y != store[t].id
    requires forall y :: y in s'[t].followers <==> y in store[t].followers && y != store[0].id
    ensures forall i, j :: 0 <= i < |s'| && 0 <= j < |s'| ==>
      (s'[j].id in s'[i].following <==> s'[i].id in s'[j].followers)
  {
    forall i, j | 0 <= i < |s'| && 0 <= j < |s'|
      ensures s'[j].id in s'[i].following <==> s'[i].id in s'[j].followers
    {
      assert s'[j].id == store[t].id <==> j == t;
      assert s'[i].id == store[0].id <==> i == 0;
    }
  }

  /** When both lists hold the edge, both splices hit a real index and remove exactly it. */
  lemma UnlinkFound(user: Profile, target: Profile)
    requires target.id in user.following && user.id in target.followers
    ensures Unlink(user, target)
      == (user.(following := RemoveAt(user.following, IndexOf(user.following, target.id)),
                followingCount := user.followingCount - 1),
          target.(followers := RemoveAt(target.followers, IndexOf(target.followers, user.id)),
                  followersCount := target.followersCount - 1))
  {
  }

  /** Unlinking profile 0 from profile t, in a consistent graph where 0 follows t, keeps the
      graph consistent. */
  lemma UnlinkPreservesConsistency(store: Profiles, t: nat)
    requires Consistent(store) && 0 < t < |store| && store[t].id in store[0].following
    ensures var pair := Unlink(store[0], store[t]);
      Consistent(store[0 := pair.0][t := pair.1])
  {
    var user := store[0];
    var target := store[t];
    assert user.id in target.followers;
    var pair := Unlink(user, target);
    UnlinkFound(user, target);
    var s' := store[0 := pair.0][t := pair.1];
    RemoveFoundNoDup(user.following, target.id);
    RemoveFoundNoDup(target.followers, user.id);
    assert forall k :: 0 <= k < |s'| ==> s'[k].id == store[k].id;
    assert forall i, j :: 0 <= i < j < |s'| ==> s'[i].id != s'[j].id;
    DropEdgeKeepsSymmetry(store, s', t);
    assert forall k :: 0 <= k < |s'| ==> Counted(s'[k]);
  }

  /** When the user follows the target, an unfollow writes back the pair `Unlink` gives. */
  lemma UnfollowFollowed(store: Profiles, name: string)
    requires NotSelf(store, name) && |store| > 0 && FindByUsername(store, name) >= 0
    requires store[FindByUsername(store, name)].id in store[0].following
    ensures var t := FindByUsername(store, name);
      var pair := Unlink(store[0], store[t]);
      Unfollow(store, name) == Ok(store[0 := pair.0][t := pair.1], UnfollowedMessage)
  {
  }

  /** An unfollow keeps a consistent graph consistent: by symmetry the index of the user among
      the target's followers is never -1. */
  lemma UnfollowPreservesConsistency(store: Profiles, name: string)
    requires NotSelf(store, name) && Consistent(store)
    ensures Unfollow(store, name).Ok? ==> Consistent(Unfollow(store, name).store)
  {
    if |store| > 0 && FindByUsername(store, name) >= 0 {
      var t := FindByUsername(store, name);
      if store[t].id in store[0].following {
        UnfollowFollowed(store, name);
        UnlinkPreservesConsistency(store, t);
      }
    }
  }

  /** A profile with nothing but an id and a username. */
  function Blank(id: Id, username: string): Profile {
    Profile(id, username, username + "@example.com", DefaultAvatar, "", 0, 0, 0, [], [], [], [], 0)
  }

  /** Without symmetry the unchecked index bites a bystander. The current user "me" follows
      "t" without being among t's followers, while "c" follows t and is listed. Unfollowing t
      splices at index -1 and removes c from t's followers, although c still follows t. */
  lemma UnfollowWithoutSymmetryDropsBystander()
    ensures
      var me := Blank("me", "me").(following := ["t"], followingCount := 1);
      var c := Blank("c", "c").(following := ["t"], followingCount := 1);
      var target := Blank("t", "t").(followers := ["c"], followersCount := 1);
      var r := Unfollow([me, target, c], "t");
      && r.Ok?
      && r.store[1].followers == []
      && r.store[1].followersCount == 0
      && "t" in r.store[2].following
  {
    var me := Blank("me", "me").(following := ["t"], followingCount := 1);
    var c := Blank("c", "c").(following := ["t"], followingCount := 1);
    var target := Blank("t", "t").(followers := ["c"], followersCount := 1);
    var s := [me, target, c];
    assert s[0].username != "t" && s[1].username == "t";
    assert FindByUsername(s, "t") == 1;
  }
}

=== FILE: rooms.dfy ===
/** The Flask room registry (backend_app.py): an in-memory map from room type to the rooms of
    that type, read whole by `get_rooms` and extended one room at a time by `create_room`. */
module RoomRegistry {
  import opened Wrappers

  datatype Room = Room(name: string)

  type Rooms = map<string, seq<Room>>

  const DefaultType := "public"
  const DefaultName := "unnamed"

  /** The registry at start-up: two empty buckets. */
  const Initial: Rooms := map["public" := [], "private" := []]

  /** The body of a successful `create_room`. */
  const StatusOk := "ok"

  /** `GET /api/rooms`: the whole map. */
  function GetRooms(rooms: Rooms): (r: Rooms)
    ensures r.Keys == rooms.Keys && forall t :: t in rooms ==> r[t] == rooms[t]
  {
    rooms
  }

  /** `POST /api/rooms`: a room of the requested type (by default "public") with the
      requested name (by default "unnamed") goes on the end of that type's bucket, which is
      created empty first when the type is new. */
  function CreateRoom(rooms: Rooms, roomType: Option<string>, name: Option<string>): (r: (Rooms, string))
    ensures r.1 == StatusOk
    ensures var t := roomType.GetOr(DefaultType);
      var before := if t in rooms then rooms[t] else [];
      && r.0.Keys == rooms.Keys + {t}
      && r.0[t] == before + [Room(name.GetOr(DefaultName))]
      && forall u :: u in rooms && u != t ==> r.0[u] == rooms[u]
  {
    var t := roomType.GetOr(DefaultType);
    var bucket := if t in rooms then rooms[t] else [];
    (rooms[t := bucket + [Room(name.GetOr(DefaultName))]], StatusOk)
  }

  /** The number of rooms of all types. */
  ghost function Total(rooms: Rooms): nat
    decreases |rooms.Keys|
  {
    if rooms == map[] then 0
    else
      var t :| t in rooms;
      |rooms[t]| + Total(rooms - {t})
  }

  // ---- Properties ----

  /** At start-up the registry answers with the two buckets and no rooms. */
  lemma InitialIsEmpty()
    ensures GetRooms(Initial).Keys == {"public", "private"}
    ensures GetRooms(Initial)["public"] == [] && GetRooms(Initial)["private"] == []
  {
  }

  /** A room created without a type is public, and one created without a name is "unnamed":
      it is the last public room. */
  lemma DefaultsArePublicUnnamed(rooms: Rooms)
    ensures var r := GetRooms(CreateRoom(rooms, None, None).0);
      "public" in r && |r["public"]| > 0 && r["public"][|r["public"]| - 1] == Room("unnamed")
  {
  }

  /** Removing one key from a map takes its rooms out of the total. */
  lemma {:induction false} TotalRemove(rooms: Rooms, t: string)
    requires t in rooms
    ensures Total(rooms) == |rooms[t]| + Total(rooms - {t})
    decreases |rooms.Keys|
  {
    var u :| u in rooms && Total(rooms) == |rooms[u]| + Total(rooms - {u});
    if u != t {
      var rest := rooms - {u};
      TotalRemove(rest, t);
      TotalRemove(rooms - {t}, u);
      assert rest - {t} == (rooms - {t}) - {u};
    }
  }

  /** Every `create_room` adds exactly one room in all. */
  lemma CreateAddsOne(rooms: Rooms, roomType: Option<string>, name: Option<string>)
    ensures Total(CreateRoom(rooms, roomType, name).0) == Total(rooms) + 1
  {
    var t := roomType.GetOr(DefaultType);
    var r := CreateRoom(rooms, roomType, name).0;
    TotalRemove(r, t);
    assert r - {t} == rooms - {t};
    if t in rooms {
      TotalRemove(rooms, t);
    } else {
      assert rooms - {t} == rooms;
    }
  }

  /** The rooms a sequence of `create_room` calls produces, in order. */
  function CreateAll(rooms: Rooms, calls: seq<(Option<string>, Option<string>)>): Rooms
    decreases |calls|
  {
    if |calls| == 0 then rooms else CreateAll(CreateRoom(rooms, calls[0].0, calls[0].1).0, calls[1..])
  }

  /** Buckets are never removed and rooms already in a bucket stay at the front of it in
      their order, whatever rooms are created later. */
  lemma {:induction false} CreatesOnlyAppend(rooms: Rooms, calls: seq<(Option<string>, Option<string>)>)
    ensures rooms.Keys <= CreateAll(rooms, calls).Keys
    ensures forall t :: t in rooms ==> rooms[t] <= CreateAll(rooms, calls)[t]
    ensures Total(CreateAll(rooms, calls)) == Total(rooms) + |calls|
    decreases |calls|
  {
    if |calls| > 0 {
      var r1 := CreateRoom(rooms, calls[0].0, calls[0].1).0;
      CreateAddsOne(rooms, calls[0].0, calls[0].1);
      CreatesOnlyAppend(r1, calls[1..]);
      var end := CreateAll(rooms, calls);
      forall t | t in rooms ensures rooms[t] <= end[t] {
        assert rooms[t] <= r1[t];
        assert r1[t] <= end[t];
      }
    }
  }
}

=== FILE: sorting.dfy ===
/** Listing queries: MongoDB's `.sort({ field: -1 })` and `.limit(n)` over a collection. */
module Sorting {

  /** Non-increasing by `key`: what a descending sort returns. */
  predicate SortedDesc<T>(s: seq<T>, key: T -> int) {
    forall i, j :: 0 <= i < j < |s| ==> key(s[i]) >= key(s[j])
  }

  /** Places `x` into a list sorted in descending order, before the first element whose key is
      not larger. */
  function Insert<T>(x: T, s: seq<T>, key: T -> int): (r: seq<T>)
    requires SortedDesc(s, key)
    ensures SortedDesc(r, key)
    ensures multiset(r) == multiset(s) + multiset{x}
  {
    if |s| == 0 || key(x) >= key(s[0]) then [x] + s
    else
      var rest := Insert(x, s[1..], key);
      assert s == [s[0]] + s[1..];
      HeadBoundsInsert(x, s, rest, key);
      [s[0]] + rest
  }

  /** The head of a sorted list that outranks `x` still heads the list once `x` is inserted
      into its tail. */
  lemma HeadBoundsInsert<T>(x: T, s: seq<T>, rest: seq<T>, key: T -> int)
    requires |s| > 0 && SortedDesc(s, key) && key(x) < key(s[0])
    requires SortedDesc(rest, key) && multiset(rest) == multiset(s[1..]) + multiset{x}
    ensures SortedDesc([s[0]] + rest, key)
  {
    var r := [s[0]] + rest;
    forall i, j | 0 <= i < j < |r| ensures key(r[i]) >= key(r[j]) {
      if i == 0 {
        var y := rest[j - 1];
        assert y in multiset(rest);
        if y != x {
          assert y in multiset(s[1..]);
          var k :| 0 <= k < |s[1..]| && s[1..][k] == y;
          assert s[k + 1] == y;
        }
      } else {
        assert r[i] == rest[i - 1] && r[j] == rest[j - 1];
      }
    }
  }

  /** Sorts in descending order of `key`; nothing is promised about the order of equal keys. */
  function SortDesc<T>(s: seq<T>, key: T -> int): (r: seq<T>)
    ensures SortedDesc(r, key)
    ensures multiset(r) == multiset(s)
  {
    if |s| == 0 then []
    else
      assert s == [s[0]] + s[1..];
      Insert(s[0], SortDesc(s[1..], key), key)
  }

  /** `.limit(n)`: the first `n` elements, or all of them when there are fewer. */
  function Take<T>(s: seq<T>, n: nat): (r: seq<T>)
    ensures |r| <= n && |r| <= |s|
    ensures |r| == n || |r| == |s|
    ensures r == s[..|r|]
  {
    if |s| <= n then s else s[..n]
  }

  /** The first `n` elements are among the elements. */
  lemma TakeSubMultiset<T>(s: seq<T>, n: nat)
    ensures multiset(Take(s, n)) <= multiset(s)
  {
    var r := Take(s, n);
    assert s == r + s[|r|..];
  }

  /** When the first `n` of a descending list hold fewer copies of `x` than the whole list,
      there are `n` of them and each ranks at least as high as `x`. */
  lemma TakeOfSortedOutranksCopy<T>(s: seq<T>, n: nat, key: T -> int, x: T)
    requires SortedDesc(s, key) && multiset(Take(s, n))[x] < multiset(s)[x]
    ensures |Take(s, n)| == n
    ensures forall k :: 0 <= k < n ==> key(Take(s, n)[k]) >= key(x)
  {
    var t := Take(s, n);
    var rest := s[|t|..];
    assert s == t + rest;
    assert multiset(s) == multiset(t) + multiset(rest);
    assert x in multiset(rest);
    var q :| 0 <= q < |rest| && rest[q] == x;
    assert s[|t| + q] == x;
  }
}

=== FILE: spotify.dfy ===
/** The Spotify routes (backend/routes/spotify.js): the OAuth callback that creates or
    refreshes a user's integration, the lookups that need a connected account, disconnect, and
    linking a Spotify track into the music collection. The token exchange and the calls to the
    Spotify Web API are not modelled; their answers are parameters. */
module SpotifyRoutes {
  import opened Wrappers
  import opened Js
  import opened Models
  import MusicRoutes

  type Integrations = seq<Integration>

  const NotConnectedMessage := "Not connected to Spotify"
  const AuthFailedMessage := "Failed to authenticate with Spotify"
  const DisconnectedMessage := "Spotify account disconnected"

  /** What the token endpoint answers: `access_token`, `refresh_token`, `expires_in` (in
      seconds). */
  datatype TokenGrant = TokenGrant(accessToken: Option<string>, refreshToken: Option<string>, expiresIn: int)

  /** One entry of the `images` of a Spotify user. */
  datatype Image = Image(url: Option<string>)

  /** What `GET /v1/me` answers: `id`, `display_name`, `email`, `images`, `followers.total`. */
  datatype SpotifyUser = SpotifyUser(
    id: Option<string>,
    displayName: Option<string>,
    email: Option<string>,
    images: seq<Image>,
    followers: Option<int>)

  /** `images?.[0]?.url`: the first image's url, if there is a first image. */
  function FirstImage(u: SpotifyUser): (r: Option<string>)
    ensures |u.images| == 0 ==> r == None
    ensures |u.images| > 0 ==> r == u.images[0].url
  {
    if |u.images| == 0 then None else u.images[0].url
  }

  /** `SpotifyIntegration.findOne({ userId })`: the first integration of that user, or -1. */
  function LocateUser(store: Integrations, userId: Id): (i: int)
    ensures -1 <= i < |store|
    ensures i == -1 <==> forall k :: 0 <= k < |store| ==> store[k].userId != userId
    ensures 0 <= i ==> store[i].userId == userId && forall k :: 0 <= k < i ==> store[k].userId != userId
  {
    FindIndex(store, (g: Integration) => g.userId == userId)
  }

  /** The unique indexes on `userId` and on `spotifyId`. */
  predicate UniqueKeys(store: Integrations) {
    forall i, j :: 0 <= i < j < |store| ==>
      store[i].userId != store[j].userId && store[i].spotifyId != store[j].spotifyId
  }

  /** The schema's checks on a new integration: a known user type, a non-empty Spotify id that
      no stored integration has, and a non-empty access token. */
  predicate NewIntegrationValid(store: Integrations, userType: Option<string>, spotifyId: Option<string>,
                                accessToken: Option<string>) {
    && userType.Some? && ValidUserType(userType.value)
    && Truthy(spotifyId)
    && (forall k :: 0 <= k < |store| ==> store[k].spotifyId != spotifyId.value)
    && Truthy(accessToken)
  }

  /** `POST /callback`. Without a token grant or a Spotify profile (either call failed) the
      request fails before anything is saved. A user without an integration gets a new one
      built from the profile; an existing integration gets the new tokens, expiry, display
      name and image, and keeps everything else. A failed save fails the request with the
      same message. */
  function Callback(store: Integrations, userId: Id, userType: Option<string>, grant: Option<TokenGrant>,
                    profile: Option<SpotifyUser>, now: Millis): (r: Response<Integrations, Integration>)
    ensures r.Ok? || r.BadRequest?
    ensures r.BadRequest? ==> r.message == AuthFailedMessage
    ensures grant.None? || profile.None? ==> r.BadRequest?
    ensures grant.Some? && profile.Some? && LocateUser(store, userId) == -1 ==>
      var t, u := grant.value, profile.value;
      && (r.Ok? <==> NewIntegrationValid(store, userType, u.id, t.accessToken))
      && (r.Ok? ==> (r.store == store + [r.reply]
            && r.reply.userId == userId && r.reply.userType == userType.value
            && r.reply.spotifyId == u.id.value
            && r.reply.spotifyUsername == u.displayName && r.reply.displayName == u.displayName
            && r.reply.email == u.email
            && r.reply.profileImage == (if |u.images| > 0 then u.images[0].url else None)
            && r.reply.accessToken == t.accessToken.value && r.reply.refreshToken == t.refreshToken
            && r.reply.expiresAt == now + t.expiresIn * 1000
            && r.reply.followers == u.followers
            && r.reply.following == None && r.reply.popularity == None
            && r.reply.genres == [] && r.reply.linkedTracks == [] && r.reply.playlists == []
            && r.reply.connectedAt == now))
    ensures grant.Some? && profile.Some? && LocateUser(store, userId) >= 0 ==>
      var t, u := grant.value, profile.value;
      var i := LocateUser(store, userId);
      var prev := store[i];
      && (r.Ok? <==> Truthy(t.accessToken))
      && (r.Ok? ==> (SameExcept(store, r.store, i) && r.store[i] == r.reply
            && r.reply.accessToken == t.accessToken.value && r.reply.refreshToken == t.refreshToken
            && r.reply.expiresAt == now + t.expiresIn * 1000
            && r.reply.displayName == u.displayName
            && r.reply.profileImage == FirstImage(u)
            && r.reply.(accessToken := prev.accessToken, refreshToken := prev.refreshToken,
                        expiresAt := prev.expiresAt, displayName := prev.displayName,
                        profileImage := prev.profileImage) == prev))
  {
    if grant.None? || profile.None? then BadRequest(AuthFailedMessage)
    else
      var t, u := grant.value, profile.value;
      var expiresAt := now + t.expiresIn * 1000;
      var i := LocateUser(store, userId);
      if i == -1 then
        if !NewIntegrationValid(store, userType, u.id, t.accessToken) then BadRequest(AuthFailedMessage)
        else
          var g := Integration(userId, userType.value, u.id.value, u.displayName, u.displayName, u.email,
                               FirstImage(u), t.accessToken.value, t.refreshToken, expiresAt,
                               u.followers, None, [], None, [], [], now);
          Ok(store + [g], g)
      else if !Truthy(t.accessToken) then BadRequest(AuthFailedMessage)
      else
        var g := store[i].(accessToken := t.accessToken.value, refreshToken := t.refreshToken,
                           expiresAt := expiresAt, displayName := u.displayName,
                           profileImage := FirstImage(u));
        Ok(store[i := g], g)
  }

  /** `GET /:userId`. */
  function GetIntegration(store: Integrations, userId: Id): (r: Response<Integrations, Integration>)
    ensures r.Ok? || r.NotFound?
    ensures r.NotFound? <==> LocateUser(store, userId) == -1
    ensures r.NotFound? ==> r.message == NotConnectedMessage
    ensures r.Ok? ==> r.store == store && r.reply.userId == userId && r.reply in store
  {
    var i := LocateUser(store, userId);
    if i == -1 then NotFound(NotConnectedMessage) else Ok(store, store[i])
  }

  /** A call to the Spotify Web API on the user's behalf (`fetch`, given the stored access
      token; `None` when the call fails). A user without an integration is told so and the
      API is not called. */
  function CallAsUser<Item>(store: Integrations, userId: Id, fetch: string -> Option<seq<Item>>)
    : (r: Response<Integrations, seq<Item>>)
    ensures r.NotFound? <==> LocateUser(store, userId) == -1
    ensures r.NotFound? ==> r.message == NotConnectedMessage
    ensures !r.BadRequest?
    ensures LocateUser(store, userId) >= 0 ==>
      var token := store[LocateUser(store, userId)].accessToken;
      && (r.ServerError? <==> fetch(token).None?)
      && (r.Ok? ==> r.store == store && r.reply == fetch(token).value)
  {
    var i := LocateUser(store, userId);
    if i == -1 then NotFound(NotConnectedMessage)
    else
      var items := fetch(store[i].accessToken);
      if items.None? then ServerError("Spotify request failed") else Ok(store, items.value)
  }

  /** `GET /:userId/top-tracks`: the user's top tracks, as `topTracks` answers for the token. */
  function TopTracks<Item>(store: Integrations, userId: Id, topTracks: string -> Option<seq<Item>>)
    : (r: Response<Integrations, seq<Item>>)
    ensures r.NotFound? <==> LocateUser(store, userId) == -1
    ensures LocateUser(store, userId) >= 0 ==>
      var token := store[LocateUser(store, userId)].accessToken;
      && (r.Ok? <==> topTracks(token).Some?)
      && (r.Ok? ==> r.store == store && r.reply == topTracks(token).value)
  {
    CallAsUser(store, userId, topTracks)
  }

  /** `GET /:userId/playlists`: the user's playlists, as `playlists` answers for the token. */
  function Playlists<Item>(store: Integrations, userId: Id, playlists: string -> Option<seq<Item>>)
    : (r: Response<Integrations, seq<Item>>)
    ensures r.NotFound? <==> LocateUser(store, userId) == -1
    ensures LocateUser(store, userId) >= 0 ==>
      var token := store[LocateUser(store, userId)].accessToken;
      && (r.Ok? <==> playlists(token).Some?)
      && (r.Ok? ==> r.store == store && r.reply == playlists(token).value)
  {
    CallAsUser(store, userId, playlists)
  }

  /** `DELETE /:userId`: removes the user's first integration, if any, and answers the same
      either way. */
  function Disconnect(store: Integrations, userId: Id): (r: Response<Integrations, string>)
    ensures r.Ok? && r.reply == DisconnectedMessage
    ensures LocateUser(store, userId) == -1 ==> r.store == store
    ensures LocateUser(store, userId) >= 0 ==>
      var i := LocateUser(store, userId);
      && |r.store| == |store| - 1
      && r.store[..i] == store[..i] && r.store[i..] == store[i + 1..]
  {
    var i := LocateUser(store, userId);
    if i == -1 then Ok(store, DisconnectedMessage)
    else Ok(RemoveAt(store, i), DisconnectedMessage)
  }

  /** The integrations and the music collection, which link-track writes together. */
  datatype Stores = Stores(integrations: Integrations, tracks: MusicRoutes.Tracks)

  /** `POST /:userId/link-track`: a user with an integration adds a track, uploaded by them,
      to the music collection (the same checks as creating one there), and its id goes on the
      end of the integration's `linkedTracks`. */
  function LinkTrack(stores: Stores, userId: Id, musicId: Id, title: Option<string>, artist: Option<string>,
                     album: Option<string>, imageUrl: Option<string>, spotifyId: Option<string>)
    : (r: Response<Stores, Music>)
    ensures r.Ok? || r.NotFound? || r.BadRequest?
    ensures r.NotFound? <==> LocateUser(stores.integrations, userId) == -1
    ensures r.NotFound? ==> r.message == NotConnectedMessage
    ensures LocateUser(stores.integrations, userId) >= 0 ==>
      var created := MusicRoutes.CreateMusic(stores.tracks, musicId, title, artist, album, None,
                                             imageUrl, None, spotifyId, None, Some(userId));
      (r.Ok? <==> created.Ok?)
    ensures r.Ok? ==>
      var i := LocateUser(stores.integrations, userId);
      var before := stores.integrations[i].linkedTracks;
      && r.store.tracks == stores.tracks + [r.reply]
      && r.reply.id == musicId && r.reply.uploadedBy == Some(userId)
      && r.reply.title == title.value && r.reply.artist == artist.value
      && r.reply.album == album && r.reply.imageUrl == imageUrl && r.reply.spotifyId == spotifyId
      && SameExcept(stores.integrations, r.store.integrations, i)
      && r.store.integrations[i].linkedTracks == before + [musicId]
      && r.store.integrations[i].(linkedTracks := before) == stores.integrations[i]
  {
    var i := LocateUser(stores.integrations, userId);
    if i == -1 then NotFound(NotConnectedMessage)
    else
      var created := MusicRoutes.CreateMusic(stores.tracks, musicId, title, artist, album, None,
                                             imageUrl, None, spotifyId, None, Some(userId));
      if !created.Ok? then BadRequest(created.message)
      else
        var g := stores.integrations[i];
        var g' := g.(linkedTracks := g.linkedTracks + [created.reply.id]);
        Ok(Stores(stores.integrations[i := g'], created.store), created.reply)
  }

  // ---- Properties relating several requests ----

  /** The lookup by user only depends on the user ids. */
  lemma LocateUserFrame(store: Integrations, store': Integrations, userId: Id)
    requires |store| == |store'|
    requires forall k :: 0 <= k < |store| ==> store[k].userId == store'[k].userId
    ensures LocateUser(store, userId) == LocateUser(store', userId)
  {
    FindIndexFrame(store, store', (g: Integration) => g.userId == userId);
  }

  /** The callback never gives a user a second integration, nor two integrations one
      Spotify account: both unique keys stay unique. */
  lemma CallbackKeepsKeysUnique(store: Integrations, userId: Id, userType: Option<string>,
                                grant: Option<TokenGrant>, profile: Option<SpotifyUser>, now: Millis)
    requires UniqueKeys(store)
    requires Callback(store, userId, userType, grant, profile, now).Ok?
    ensures UniqueKeys(Callback(store, userId, userType, grant, profile, now).store)
  {
    var r := Callback(store, userId, userType, grant, profile, now);
    if LocateUser(store, userId) == -1 {
      assert r.store[|store|] == r.reply;
    }
  }

  /** After a successful callback, looking the user up returns the integration it saved. */
  lemma CallbackThenGet(store: Integrations, userId: Id, userType: Option<string>,
                        grant: Option<TokenGrant>, profile: Option<SpotifyUser>, now: Millis)
    requires Callback(store, userId, userType, grant, profile, now).Ok?
    ensures var r := Callback(store, userId, userType, grant, profile, now);
      GetIntegration(r.store, userId) == Ok(r.store, r.reply)
  {
    var r := Callback(store, userId, userType, grant, profile, now);
    if LocateUser(store, userId) == -1 {
      assert r.store[|store|] == r.reply;
    } else {
      LocateUserFrame(store, r.store, userId);
    }
  }

  /** Replaying a successful callback with the same answers from Spotify, at the same time,
      changes nothing more: the second call refreshes the integration the first one saved. */
  lemma CallbackIdempotent(store: Integrations, userId: Id, userType: Option<string>,
                           grant: Option<TokenGrant>, profile: Option<SpotifyUser>, now: Millis)
    requires Callback(store, userId, userType, grant, profile, now).Ok?
    ensures var r := Callback(store, userId, userType, grant, profile, now);
      Callback(r.store, userId, userType, grant, profile, now) == r
  {
    var r := Callback(store, userId, userType, grant, profile, now);
    var i := LocateUser(store, userId);
    if i == -1 {
      assert r.store[|store|] == r.reply;
      assert LocateUser(r.store, userId) == |store|;
      assert r.store[|store| := r.reply] == r.store;
    } else {
      LocateUserFrame(store, r.store, userId);
      assert r.store[i := r.store[i]] == r.store;
    }
  }

  /** With one integration per user, a disconnected user is no longer connected. */
  lemma DisconnectThenGetNotFound(store: Integrations, userId: Id)
    requires UniqueKeys(store)
    ensures GetIntegration(Disconnect(store, userId).store, userId).NotFound?
    ensures UniqueKeys(Disconnect(store, userId).store)
  {
    var i := LocateUser(store, userId);
    var s' := Disconnect(store, userId).store;
    if i >= 0 {
      assert forall k :: 0 <= k < |s'| ==> s'[k] == store[if k < i then k else k + 1];
    }
  }

  /** Linking two tracks one after the other puts both ids on the end of `linkedTracks`, in
      the order they were linked. */
  lemma LinkTwiceAppendsInOrder(stores: Stores, userId: Id, m1: Id, m2: Id,
                                title: Option<string>, artist: Option<string>)
    requires LocateUser(stores.integrations, userId) >= 0
    requires Truthy(title) && Truthy(artist)
    ensures var r1 := LinkTrack(stores, userId, m1, title, artist, None, None, None);
      && r1.Ok?
      && var r2 := LinkTrack(r1.store, userId, m2, title, artist, None, None, None);
      && r2.Ok?
      && var i := LocateUser(stores.integrations, userId);
      r2.store.integrations[i].linkedTracks == stores.integrations[i].linkedTracks + [m1, m2]
  {
    var r1 := LinkTrack(stores, userId, m1, title, artist, None, None, None);
    LocateUserFrame(stores.integrations, r1.store.integrations, userId);
  }
}

=== FILE: storage_manager.dfy ===
/** The admin panel's file-backed storage (backend/admin/storage-manager.js): an append-only
    action log, user reports with a `pending -> resolved` lifecycle, and a settings object.
    Each of the three JSON files is modelled by its parsed contents, `None` while the file
    does not exist; the clock readings that stamp new entries are parameters. */
module AdminStorage {
  import opened Wrappers
  import opened Js

  /** A JSON value as `JSON.parse` produces it. */
  datatype Json =
    | JNull
    | JBool(b: bool)
    | JNum(n: int)
    | JStr(s: string)
    | JArr(items: seq<Json>)
    | JObj(fields: map<string, Json>)

  /** A stored log entry, report or settings object: its top-level fields. */
  type Obj = map<string, Json>

  datatype Files = Files(logs: Option<seq<Obj>>, reports: Option<seq<Obj>>, settings: Option<Obj>)

  /** The storage before any file has been written. */
  const Empty := Files(None, None, None)

  const ReportNotFound := "Report not found"

  /** `{ ...entry, timestamp, id }`: the entry's fields, with the stamp fields written last so
      that they win over fields of the same name. */
  function Stamp(entry: Obj, iso: string, ms: int): (r: Obj)
    ensures r.Keys == entry.Keys + {"timestamp", "id"}
    ensures r["timestamp"] == JStr(iso) && r["id"] == JNum(ms)
    ensures forall k :: k in entry && k != "timestamp" && k != "id" ==> r[k] == entry[k]
  {
    entry["timestamp" := JStr(iso)]["id" := JNum(ms)]
  }

  // ---- adminLogs ----

  /** `adminLogs.getAll`: the stored entries, or none when the file is absent. */
  function LogsGetAll(f: Files): (r: seq<Obj>)
    ensures f.logs.None? ==> r == []
    ensures f.logs.Some? ==> r == f.logs.value
  {
    f.logs.GetOr([])
  }

  /** `adminLogs.add`: appends the stamped entry and answers with its id. */
  function LogsAdd(f: Files, entry: Obj, iso: string, ms: int): (r: Response<Files, int>)
    ensures r.Ok? && r.reply == ms
    ensures r.store.reports == f.reports && r.store.settings == f.settings
    ensures var before := LogsGetAll(f);
      && LogsGetAll(r.store) == before + [Stamp(entry, iso, ms)]
      && LogsGetAll(r.store)[|before|]["id"] == JNum(r.reply)
  {
    Ok(f.(logs := Some(LogsGetAll(f) + [Stamp(entry, iso, ms)])), ms)
  }

  /** `adminLogs.clear`: deletes the log file. */
  function LogsClear(f: Files): (r: Response<Files, ()>)
    ensures r.Ok? && LogsGetAll(r.store) == []
    ensures r.store.reports == f.reports && r.store.settings == f.settings
  {
    Ok(f.(logs := None), ())
  }

  // ---- reports ----

  /** `reports.getAll`: the stored reports, or none when the file is absent. */
  function ReportsGetAll(f: Files): (r: seq<Obj>)
    ensures f.reports.None? ==> r == []
    ensures f.reports.Some? ==> r == f.reports.value
  {
    f.reports.GetOr([])
  }

  /** `reports.add`: appends the stamped report, its status set to pending whatever the report
      said, and answers with it. */
  function ReportsAdd(f: Files, report: Obj, iso: string, ms: int): (r: Response<Files, Obj>)
    ensures r.Ok?
    ensures r.store.logs == f.logs && r.store.settings == f.settings
    ensures "status" in r.reply && r.reply["status"] == JStr("pending")
    ensures "id" in r.reply && r.reply["id"] == JNum(ms)
    ensures "timestamp" in r.reply && r.reply["timestamp"] == JStr(iso)
    ensures forall k :: k in report && k !in {"timestamp", "id", "status"} ==> k in r.reply && r.reply[k] == report[k]
    ensures ReportsGetAll(r.store) == ReportsGetAll(f) + [r.reply]
  {
    var added := Stamp(report, iso, ms)["status" := JStr("pending")];
    Ok(f.(reports := Some(ReportsGetAll(f) + [added])), added)
  }

  /** The report has the given id. */
  predicate HasId(report: Obj, id: Json) {
    "id" in report && report["id"] == id
  }

  /** The position of the first stored report with the id, or -1. */
  function LocateReport(reports: seq<Obj>, id: Json): (i: int)
    ensures -1 <= i < |reports|
    ensures i == -1 <==> forall k :: 0 <= k < |reports| ==> !HasId(reports[k], id)
    ensures 0 <= i ==> HasId(reports[i], id) && forall k :: 0 <= k < i ==> !HasId(reports[k], id)
  {
    FindIndex(reports, (o: Obj) => HasId(o, id))
  }

  /** The report marked resolved with the resolution; a `resolution` of `undefined` is not
      written to the file, so `None` leaves the field out. */
  function MarkResolved(report: Obj, resolution: Option<Json>): (r: Obj)
    ensures "status" in r && r["status"] == JStr("resolved")
    ensures resolution.Some? ==> "resolution" in r && r["resolution"] == resolution.value
    ensures resolution.None? ==> "resolution" !in r
    ensures forall k :: k in report && k != "status" && k != "resolution" ==> k in r && r[k] == report[k]
    ensures r.Keys <= report.Keys + {"status", "resolution"}
  {
    var marked := report["status" := JStr("resolved")];
    if resolution.Some? then marked["resolution" := resolution.value] else marked - {"resolution"}
  }

  /** `reports.resolve`: the first report with the id is marked resolved; without a reports
      file or such a report, nothing changes and the answer is "Report not found". */
  function ReportsResolve(f: Files, id: Json, resolution: Option<Json>): (r: Response<Files, ()>)
    ensures r.Ok? || r.NotFound?
    ensures r.NotFound? <==> LocateReport(ReportsGetAll(f), id) == -1
    ensures r.NotFound? ==> r.message == ReportNotFound
    ensures r.Ok? ==>
      var before := ReportsGetAll(f);
      var i := LocateReport(before, id);
      && r.store.logs == f.logs && r.store.settings == f.settings
      && var after := ReportsGetAll(r.store);
      && |after| == |before|
      && after[i] == MarkResolved(before[i], resolution)
      && forall k :: 0 <= k < |before| && k != i ==> after[k] == before[k]
  {
    if f.reports.None? then NotFound(ReportNotFound)
    else
      var all := f.reports.value;
      var i := LocateReport(all, id);
      if i == -1 then NotFound(ReportNotFound)
      else Ok(f.(reports := Some(all[i := MarkResolved(all[i], resolution)])), ())
  }

  // ---- settings ----

  /** `settings.get`: the stored object, or an empty one when the file is absent. */
  function SettingsGet(f: Files): (r: Obj)
    ensures f.settings.None? ==> r == map[]
    ensures f.settings.Some? ==> r == f.settings.value
  {
    f.settings.GetOr(map[])
  }

  /** `settings.set`: writes one key and keeps the others. */
  function SettingsSet(f: Files, key: string, value: Json): (r: Response<Files, ()>)
    ensures r.Ok?
    ensures r.store.logs == f.logs && r.store.reports == f.reports
    ensures SettingsGet(r.store).Keys == SettingsGet(f).Keys + {key}
    ensures SettingsGet(r.store)[key] == value
    ensures forall k :: k in SettingsGet(f) && k != key ==> SettingsGet(r.store)[k] == SettingsGet(f)[k]
  {
    Ok(f.(settings := Some(SettingsGet(f)[key := value])), ())
  }

  /** `settings.update`: replaces the whole object. */
  function SettingsUpdate(f: Files, all: Obj): (r: Response<Files, ()>)
    ensures r.Ok? && SettingsGet(r.store) == all
    ensures r.store.logs == f.logs && r.store.reports == f.reports
  {
    Ok(f.(settings := Some(all)), ())
  }

  // ---- Properties relating several calls ----

  /** Reads of storage nothing has been written to are empty. */
  lemma ReadsOfEmptyAreEmpty()
    ensures LogsGetAll(Empty) == [] && ReportsGetAll(Empty) == [] && SettingsGet(Empty) == map[]
  {
  }

  /** Adding and then clearing the log leaves no entries, whatever was there. */
  lemma AddThenClearIsEmpty(f: Files, entry: Obj, iso: string, ms: int)
    ensures LogsGetAll(LogsClear(LogsAdd(f, entry, iso, ms).store).store) == []
  {
  }

  /** Resolving the same report twice with the same resolution is resolving it once. */
  lemma ResolveIdempotent(f: Files, id: Json, resolution: Option<Json>)
    requires ReportsResolve(f, id, resolution).Ok?
    ensures var f1 := ReportsResolve(f, id, resolution).store;
      ReportsResolve(f1, id, resolution) == Ok(f1, ())
  {
    var f1 := ReportsResolve(f, id, resolution).store;
    var all := f.reports.value;
    var i := LocateReport(all, id);
    var after := f1.reports.value;
    FindIndexFrame(all, after, (o: Obj) => HasId(o, id));
    var m := MarkResolved(after[i], resolution);
    assert m == after[i];
    assert after[i := m] == after;
  }

  /** A report added under an id no stored report has can be resolved, and resolving it
      marks that report and only that one. */
  lemma AddThenResolve(f: Files, report: Obj, iso: string, ms: int, resolution: Option<Json>)
    requires LocateReport(ReportsGetAll(f), JNum(ms)) == -1
    ensures var f1 := ReportsAdd(f, report, iso, ms).store;
      var r := ReportsResolve(f1, JNum(ms), resolution);
      && r.Ok?
      && var after := ReportsGetAll(r.store);
      && after[|ReportsGetAll(f)|]["status"] == JStr("resolved")
      && after[..|ReportsGetAll(f)|] == ReportsGetAll(f)
  {
    var before := ReportsGetAll(f);
    var f1 := ReportsAdd(f, report, iso, ms).store;
    assert HasId(ReportsGetAll(f1)[|before|], JNum(ms));
    assert LocateReport(ReportsGetAll(f1), JNum(ms)) == |before|;
  }

  /** Setting a key and reading it back gives the value; setting it again overwrites. */
  lemma SetThenSetOverwrites(f: Files, key: string, v1: Json, v2: Json)
    ensures var f1 := SettingsSet(f, key, v1).store;
      SettingsGet(SettingsSet(f1, key, v2).store) == SettingsGet(SettingsSet(f, key, v2).store)
  {
  }

  // ---- The report lifecycle ----

  /** The calls that write the reports file. */
  datatype ReportCall =
    | Add(report: Obj, iso: string, ms: int)
    | Resolve(id: Json, resolution: Option<Json>)

  /** The storage after one call; a call that finds nothing leaves it as it was. */
  function Step(f: Files, c: ReportCall): Files {
    match c
    case Add(report, iso, ms) => ReportsAdd(f, report, iso, ms).store
    case Resolve(id, resolution) =>
      var r := ReportsResolve(f, id, resolution);
      if r.Ok? then r.store else f
  }

  function Run(f: Files, cs: seq<ReportCall>): Files
    decreases |cs|
  {
    if |cs| == 0 then f else Run(Step(f, cs[0]), cs[1..])
  }

  /** The report at position `k` is resolved. */
  predicate ResolvedAt(reports: seq<Obj>, k: int) {
    0 <= k < |reports| && "status" in reports[k] && reports[k]["status"] == JStr("resolved")
  }

  /** `b` is report `a`, possibly further along its lifecycle: every field other than
      `status` and `resolution` (its id, its timestamp, what was reported) is kept. */
  predicate SameReport(a: Obj, b: Obj) {
    forall key :: key in a && key != "status" && key != "resolution" ==> key in b && b[key] == a[key]
  }

  /** Every report of `before` is still at its position in `after`. */
  predicate KeepsReports(before: seq<Obj>, after: seq<Obj>) {
    |before| <= |after| && forall k :: 0 <= k < |before| ==> SameReport(before[k], after[k])
  }

  lemma OneStepKeepsResolved(f: Files, c: ReportCall)
    ensures KeepsReports(ReportsGetAll(f), ReportsGetAll(Step(f, c)))
    ensures forall k :: ResolvedAt(ReportsGetAll(f), k) ==> ResolvedAt(ReportsGetAll(Step(f, c)), k)
  {
    var before := ReportsGetAll(f);
    var after := ReportsGetAll(Step(f, c));
    forall k | 0 <= k < |before| ensures SameReport(before[k], after[k]) && (ResolvedAt(before, k) ==> ResolvedAt(after, k)) {
      if c.Add? {
        assert after[k] == before[k];
      }
    }
  }

  /** Keeping reports composes over two stretches of calls. */
  lemma KeepsReportsTrans(a: seq<Obj>, b: seq<Obj>, c: seq<Obj>)
    requires KeepsReports(a, b) && KeepsReports(b, c)
    ensures KeepsReports(a, c)
  {
    forall k | 0 <= k < |a| ensures SameReport(a[k], c[k]) {
      assert SameReport(a[k], b[k]) && SameReport(b[k], c[k]);
    }
  }

  /** Reports are never removed or replaced, and a resolved report never goes back to
      pending, whatever sequence of adds and resolves arrives. */
  lemma {:induction false} ResolvedStaysResolved(f: Files, cs: seq<ReportCall>)
    ensures KeepsReports(ReportsGetAll(f), ReportsGetAll(Run(f, cs)))
    ensures forall k :: ResolvedAt(ReportsGetAll(f), k) ==> ResolvedAt(ReportsGetAll(Run(f, cs)), k)
    decreases |cs|
  {
    if |cs| > 0 {
      var f1 := Step(f, cs[0]);
      OneStepKeepsResolved(f, cs[0]);
      ResolvedStaysResolved(f1, cs[1..]);
      KeepsReportsTrans(ReportsGetAll(f), ReportsGetAll(f1), ReportsGetAll(Run(f, cs)));
    } else {
      assert forall k :: 0 <= k < |ReportsGetAll(f)| ==> SameReport(ReportsGetAll(f)[k], ReportsGetAll(f)[k]);
    }
  }
}

=== FILE: stories.dfy ===
/** The story routes (backend/routes/stories.js): the active-story listing, lookup,
    creation with a default 24-hour expiry, the add-once view counter and delete. */
module StoryRoutes {
  import opened Wrappers
  import opened Js
  import opened Sorting
  import opened Models

  type Stories = seq<Story>

  const NotFoundMessage := "Story not found"
  const DeletedMessage := "Story deleted"

  /** `Story.findById(id)`: the position of the first story with that id, or -1. */
  function Locate(store: Stories, id: Id): (i: int)
    ensures -1 <= i < |store|
    ensures i == -1 <==> forall k :: 0 <= k < |store| ==> store[k].id != id
    ensures 0 <= i ==> store[i].id == id && forall k :: 0 <= k < i ==> store[k].id != id
  {
    FindIndex(store, (s: Story) => s.id == id)
  }

  /** No two stories share an id. */
  predicate UniqueIds(store: Stories) {
    forall i, j :: 0 <= i < j < |store| ==> store[i].id != store[j].id
  }

  /** A story is active while its expiry lies strictly in the future. */
  predicate Active(s: Story, now: Millis) {
    s.expiresAt > now
  }

  /** `GET /`: the stories with `expiresAt > now`, newest first. */
  function ListActive(store: Stories, now: Millis): (r: seq<Story>)
    ensures SortedDesc(r, (s: Story) => s.timestamp)
    ensures forall s :: s in r <==> s in store && Active(s, now)
    ensures multiset(r) <= multiset(store)
    ensures forall s :: multiset(r)[s] == if Active(s, now) then multiset(store)[s] else 0
  {
    var active := Filter(store, (s: Story) => s.expiresAt > now);
    FilterMembers(store, (s: Story) => s.expiresAt > now);
    var r := SortDesc(active, (s: Story) => s.timestamp);
    assert forall s :: s in r <==> s in multiset(active);
    forall s ensures multiset(r)[s] == if Active(s, now) then multiset(store)[s] else 0 {
      FilterCount(store, (s: Story) => s.expiresAt > now, s);
    }
    r
  }

  /** `GET /:id`: looks the story up whether or not it has expired. */
  function GetStory(store: Stories, id: Id): (r: Response<Stories, Story>)
    ensures r.Ok? || r.NotFound?
    ensures r.NotFound? <==> Locate(store, id) == -1
    ensures r.NotFound? ==> r.message == NotFoundMessage
    ensures r.Ok? ==> r.store == store && r.reply.id == id && r.reply in store
  {
    var i := Locate(store, id);
    if i == -1 then NotFound(NotFoundMessage) else Ok(store, store[i])
  }

  /** `POST /`: a new story stamped `now`, expiring at the supplied time or, when none is
      given, one `StoryLifetime` after `now`. A missing or empty author or image fails the
      schema's `required` check. */
  function CreateStory(store: Stories, id: Id, author: Option<string>, image: Option<string>,
                       expiresAt: Option<Millis>, now: Millis): (r: Response<Stories, Story>)
    ensures r.Ok? || r.BadRequest?
    ensures r.Ok? <==> Truthy(author) && Truthy(image)
    ensures r.BadRequest? ==> r.message == SaveFailed
    ensures r.Ok? ==> (r.store == store + [r.reply]
      && r.reply.id == id && r.reply.author == author.value && r.reply.image == image.value
      && r.reply.views == 0 && r.reply.viewedBy == []
      && r.reply.timestamp == now
      && (expiresAt.Some? ==> r.reply.expiresAt == expiresAt.value)
      && (expiresAt.None? ==> r.reply.expiresAt == now + 86_400_000))
  {
    if !Truthy(author) || !Truthy(image) then BadRequest(SaveFailed)
    else
      var s := Story(id, author.value, image.value, 0, [], now, expiresAt.GetOr(now + StoryLifetime));
      Ok(store + [s], s)
  }

  /** `PUT /:id/view`: the first view by a user records them and counts one view; a repeated
      view changes nothing. */
  function View(store: Stories, id: Id, userId: Id): (r: Response<Stories, Story>)
    ensures r.Ok? || r.NotFound?
    ensures r.NotFound? <==> Locate(store, id) == -1
    ensures r.NotFound? ==> r.message == NotFoundMessage
    ensures r.Ok? ==>
      var i := Locate(store, id);
      var before := store[i];
      && SameExcept(store, r.store, i) && r.store[i] == r.reply
      && userId in r.reply.viewedBy
      && (userId in before.viewedBy ==> r.reply == before)
      && (userId !in before.viewedBy ==>
            r.reply.viewedBy == before.viewedBy + [userId] && r.reply.views == before.views + 1)
      && r.reply.views - |r.reply.viewedBy| == before.views - |before.viewedBy|
      && before.views <= r.reply.views
      && (NoDup(before.viewedBy) ==> NoDup(r.reply.viewedBy))
      && r.reply.(views := before.views, viewedBy := before.viewedBy) == before
  {
    var i := Locate(store, id);
    if i == -1 then NotFound(NotFoundMessage)
    else
      var s := store[i];
      var s' := if userId in s.viewedBy then s
                else s.(viewedBy := s.viewedBy + [userId], views := s.views + 1);
      Ok(store[i := s'], s')
  }

  /** `DELETE /:id`: removes the first story with that id. */
  function DeleteStory(store: Stories, id: Id): (r: Response<Stories, string>)
    ensures r.Ok? || r.NotFound?
    ensures r.NotFound? <==> Locate(store, id) == -1
    ensures r.NotFound? ==> r.message == NotFoundMessage
    ensures r.Ok? ==>
      var i := Locate(store, id);
      && r.reply == DeletedMessage
      && |r.store| == |store| - 1
      && r.store[..i] == store[..i] && r.store[i..] == store[i + 1..]
      && multiset(r.store) == multiset(store) - multiset{store[i]}
  {
    var i := Locate(store, id);
    if i == -1 then NotFound(NotFoundMessage)
    else
      RemoveAtMultiset(store, i);
      Ok(RemoveAt(store, i), DeletedMessage)
  }

  // ---- Properties relating several requests ----

  /** The lookup by id only depends on the ids. */
  lemma LocateFrame(store: Stories, store': Stories, id: Id)
    requires |store| == |store'|
    requires forall k :: 0 <= k < |store| ==> store[k].id == store'[k].id
    ensures Locate(store, id) == Locate(store', id)
  {
    FindIndexFrame(store, store', (s: Story) => s.id == id);
  }

  /** Viewing twice as the same user is viewing once. */
  lemma ViewIdempotent(store: Stories, id: Id, userId: Id)
    requires View(store, id, userId).Ok?
    ensures View(View(store, id, userId).store, id, userId) == View(store, id, userId)
  {
    var s1 := View(store, id, userId).store;
    LocateFrame(store, s1, id);
    assert s1[Locate(store, id) := s1[Locate(store, id)]] == s1;
  }

  /** Two different users viewing a story that neither has seen add two views, in the order
      they came. */
  lemma TwoViewersCountTwice(store: Stories, id: Id, u: Id, v: Id)
    requires Locate(store, id) >= 0 && u != v
    requires var s := store[Locate(store, id)]; u !in s.viewedBy && v !in s.viewedBy
    ensures View(store, id, u).Ok? && View(View(store, id, u).store, id, v).Ok?
    ensures var s := store[Locate(store, id)];
      var after := View(View(store, id, u).store, id, v).reply;
      after.views == s.views + 2 && after.viewedBy == s.viewedBy + [u, v]
  {
    var s1 := View(store, id, u).store;
    LocateFrame(store, s1, id);
  }

  /** Once a story has dropped out of the listing it stays out at every later time. */
  lemma ExpiredStaysExpired(store: Stories, s: Story, t: Millis, t': Millis)
    requires s in store && s !in ListActive(store, t) && t <= t'
    ensures s !in ListActive(store, t')
  {
  }

  /** A story created without an expiry is listed at every instant of the next 24 hours
      and at none after. */
  lemma DefaultExpiryWindow(store: Stories, id: Id, author: Option<string>, image: Option<string>,
                            now: Millis, t: Millis)
    requires CreateStory(store, id, author, image, None, now).Ok?
    ensures var c := CreateStory(store, id, author, image, None, now);
      c.reply in ListActive(c.store, t) <==> t < now + StoryLifetime
  {
    var c := CreateStory(store, id, author, image, None, now);
    assert c.reply in c.store;
  }

  /** With unique ids, a deleted story is gone: looking it up again is a 404, and the ids
      stay unique. */
  lemma DeleteThenGetNotFound(store: Stories, id: Id)
    requires UniqueIds(store) && DeleteStory(store, id).Ok?
    ensures UniqueIds(DeleteStory(store, id).store)
    ensures GetStory(DeleteStory(store, id).store, id).NotFound?
  {
    var i := Locate(store, id);
    var s' := DeleteStory(store, id).store;
    assert forall k :: 0 <= k < |s'| ==> s'[k] == store[if k < i then k else k + 1];
  }

  /** A story created under a fresh id is what looking that id up returns. */
  lemma CreateThenGet(store: Stories, id: Id, author: Option<string>, image: Option<string>,
                      expiresAt: Option<Millis>, now: Millis)
    requires Locate(store, id) == -1
    requires CreateStory(store, id, author, image, expiresAt, now).Ok?
    ensures var c := CreateStory(store, id, author, image, expiresAt, now);
      GetStory(c.store, id) == Ok(c.store, c.reply)
  {
    var c := CreateStory(store, id, author, image, expiresAt, now);
    assert c.store[|store|] == c.reply;
  }
}

=== FILE: wrappers.dfy ===
/** Optional values and the outcome of a route handler. */
module Wrappers {

  /** A request field or document path that may be absent (`undefined` in JavaScript,
      a missing key in Python). */
  datatype Option<+T> = None | Some(value: T) {

    /** The value, or `default` when absent. */
    function GetOr(default: T): T {
      match this
      case Some(v) => v
      case None => default
    }
  }

  /** What a route handler answers. A successful handler yields the collection as it is
      after the handler's saves, together with the JSON body it replies with; an error
      reply carries only its message, and the collection is left as it was. */
  datatype Response<+S, +R> =
    | Ok(store: S, reply: R)         // HTTP 200 or 201
    | NotFound(message: string)      // HTTP 404
    | BadRequest(message: string)    // HTTP 400
    | ServerError(message: string)   // HTTP 500
}
